=== FILE: README.md ===
# AIHub request, ranking and reveal logic in Dafny

This project models the parts of the AIHub demo dashboard that follow exact
rules. It has two halves.

**Backend (Python/FastAPI, Streamlit)**
- `POST /text/generate`: field bounds and defaults, rejection of a blank
  prompt, optional removal of the prompt from each generated text, and how
  errors map to status codes.
- `get_recommendations`: picks the anchor by title, ranks the anchor's
  similarity row with a stable descending sort, drops the top entry, keeps
  `num` entries, and builds the poster URLs.
- The Streamlit "Recommend" block: substring search, first match, ten lines.
- `POST /ocr/extract`: chooses the engine from the method, and maps errors
  to responses.

**Frontend (React pages)**, each a pure state machine with `Step = (next
state, effects)`:
- The text generation page: the word-by-word reveal driven by
  `split(/\s+/)`, the `generating` flag, and which text copy, share and
  download act on.
- The movie page: the debounced title lookup, the recommendation request,
  and the placeholder texts on cards.
- The OCR page and the `ImageUploader` component: selecting a file,
  uploading, and what happens after the request settles.

Network calls, toasts, alerts, the clipboard, the share sheet and downloads
are `Effects.Effect` values. A reply to a request arrives as a separate
event. Timer firings (the 60 ms reveal interval, the 300 ms debounce) are
discrete events; time itself is not modelled. The ML engines, the text
generator and the upload save are inputs: each either returns a value or
raises.

Python and JavaScript disagree about which characters are whitespace.
`Strings.IsSpace` names the runtime it follows. `TextGenerationPage.BlanknessDisagreement`
shows a prompt (U+001C) that the page sends and the backend rejects with 400.

Files: `wrappers.dfy`, `strings.dfy`, `words.dfy`, `lookup.dfy`,
`ranking.dfy`, `effects.dfy` (shared), `text_routes.dfy`,
`movie_service.dfy`, `streamlit_app.dfy`, `ocr_routes.dfy`, `reveal.dfy`,
`text_generation.dfy`, `movie_recommendation.dfy`,
`image_to_text_ocr.dfy`, `image_uploader.dfy`.

Behaviour of the code worth noting:
- Revealing the empty text takes one tick and shows a single space. It does
  not finish at once with nothing shown. Every revealed text starts with a
  space.
- Title suggestions have no sequence-number guard. Any reply replaces the
  list, even a stale one. A failed lookup leaves the previous suggestions
  in place instead of clearing them.
- A query shorter than two characters clears the suggestions only when the
  debounce timer fires, not at once.
- On the generation page, a rejected native share only logs. It does not
  fall back to copying.
- A new generation request clears the display but does not stop a reveal
  that is still running (`StaleTickAfterNewRequest`).

## Model

| member | source | states |
|---|---|---|
| Strings.IsSpace | backend/app/routes/text_routes.py:24 | Python's `isspace()` set (tab to carriage return, U+001C–U+001F, space, U+0085, U+00A0, U+1680, U+2000–U+200A, U+2028, U+2029, U+202F, U+205F, U+3000) or the ECMAScript WhiteSpace/LineTerminator set used by `trim()` and `\s` (the same without U+001C–U+001F and U+0085, plus U+FEFF) |
| Strings.SpaceSetsDiffer | frontend/src/pages/TextGeneration.jsx:32 | the two whitespace sets differ exactly in U+001C–U+001F and U+0085 (Python only) and U+FEFF (JavaScript only) |
| Strings.Strip | backend/app/routes/text_routes.py:24 | `strip()` / `trim()` is `LStrip` followed by `RStrip`. Its properties are stated by `InnerPiece` (a contiguous piece with only whitespace around it), `StripEndsNonSpace` and `StripEmptyIffAllSpace` |
| Strings.LStrip | backend/app/routes/text_routes.py:40 | `lstrip()` removes exactly the leading whitespace: the result is a suffix, what was removed is all whitespace, and the result does not start with whitespace |
| Strings.RStrip | backend/app/routes/text_routes.py:24 | removing trailing whitespace leaves a prefix of the text, what was removed is all whitespace, and the result does not end with whitespace |
| Strings.InnerPiece | backend/app/routes/text_routes.py:24 | `strip()` is `lstrip()` followed by the trailing cut. Whenever the two cuts satisfy the `LStrip` and `RStrip` contracts, the result is a contiguous piece of the text with only whitespace before and after it, and it neither starts nor ends with whitespace |
| Strings.StripEndsNonSpace | frontend/src/pages/TextGeneration.jsx:32 | the result of `strip()` or `trim()` neither starts nor ends with whitespace |
| Strings.StripEmptyIffAllSpace | backend/app/routes/text_routes.py:24 | `strip()` (or `trim()`) leaves nothing exactly when every character is whitespace |
| Strings.Utf16Length | frontend/src/pages/MovieRecommendation.jsx:19 | JavaScript `length` counts UTF-16 units: at least one and at most two per character |
| Strings.JoinSnoc | frontend/src/pages/TextGeneration.jsx:57 | joining one more part appends the separator and that part |
| Strings.Lower | backend/app/services/movie_service.py:72 | `lower()` keeps the length, leaves no capital letter, keeps every non-capital character and maps each capital to its small letter |
| Strings.LowerIdempotent | backend/app/services/movie_service.py:72 | lower-casing twice gives the same text as lower-casing once |
| Words.Word | frontend/src/pages/TextGeneration.jsx:22 | the first piece of a split is the longest whitespace-free prefix, followed by whitespace or the end |
| Words.Split | frontend/src/pages/TextGeneration.jsx:22 | `split(/\s+/)` always yields at least one word, and no word contains whitespace |
| Words.CollapseAfterWord | frontend/src/pages/TextGeneration.jsx:22 | collapsing whitespace leaves the first word intact |
| Words.JoinSplitIsCollapse | frontend/src/pages/TextGeneration.jsx:22 | joining the split words with single spaces gives the text with every whitespace run collapsed to one space |
| Words.CollapseAtFirstRun | frontend/src/pages/TextGeneration.jsx:22 | a text with whitespace after its first word collapses to that word, one space, and the collapse of what follows the run |
| Words.SplitJoinRoundTrip | frontend/src/pages/TextGeneration.jsx:22 | non-empty words without whitespace, joined with spaces, split back into the same words |
| Words.SplitEmpty | frontend/src/pages/TextGeneration.jsx:22 | the empty text splits into one empty word |
| Words.SplitLeadingSpace | frontend/src/pages/TextGeneration.jsx:22 | leading whitespace gives an empty first word |
| Words.WordOfJoin | frontend/src/pages/TextGeneration.jsx:22 | the first word of `w + " " + rest` is `w` when `w` has no whitespace |
| Words.JoinHead | frontend/src/pages/TextGeneration.jsx:22 | words joined with spaces start with the first character of the first word |
| Words.LStripOneSpace | frontend/src/pages/TextGeneration.jsx:22 | a single space before a word is the whole whitespace run there |
| Words.SplitAfterSeparator | frontend/src/pages/TextGeneration.jsx:22 | a word, one space and a text starting with a non-space split into that word followed by the split of the text |
| Lookup.FirstWhere | backend/app/services/movie_service.py:75 | the first position satisfying the test, none before it; None exactly when no row satisfies it |
| Ranking.Insert | backend/app/services/movie_service.py:77 | inserting an index keeps the list ordered by score (descending) then index (ascending) and adds exactly that index |
| Ranking.RankPrefix | backend/app/services/movie_service.py:76-77 | ranking the first n indices gives a permutation of them in stable descending order |
| Ranking.Rank | backend/app/services/movie_service.py:76-77 | `sorted(enumerate(row), key=score, reverse=True)` gives a permutation of all row indices: higher scores first, and equal scores in ascending index order |
| Ranking.RankIsPermutation | backend/app/services/movie_service.py:76-77 | an index occurs in the ranking exactly when it is a valid row index |
| Ranking.RankUnique | backend/app/services/movie_service.py:77 | only one ordering of a set of indices respects the stable descending order, so the ranking is fully determined |
| Ranking.HeadsAgree | backend/app/services/movie_service.py:77 | two stable descending orderings of the same indices start with the same index |
| Ranking.RankedCons | backend/app/services/movie_service.py:77 | putting in front an index that comes before every element keeps the list ranked |
| Ranking.BeforeHeadBeforeAll | backend/app/services/movie_service.py:77 | an index that comes before the head of a ranked list comes before all of it |
| Ranking.HeadBeforeInserted | backend/app/services/movie_service.py:77 | the head of a ranked list still comes before every element once a later index is inserted in its tail |
| Ranking.BeforeTransitive | backend/app/services/movie_service.py:77 | the stable descending order is transitive |
| Ranking.Picks | backend/app/services/movie_service.py:77 | `[1:num+1]` of the ranking is empty for an empty row and otherwise has exactly min(`num`, rows − 1) entries. Entry k is the ranking's entry k + 1, and the entries stay in ranked order |
| Ranking.RankedScoresNonIncreasing | backend/app/services/movie_service.py:77 | scores never increase along a ranking |
| MovieService.Anchor | backend/app/services/movie_service.py:72-75 | the anchor is the first row whose title equals the query ignoring case; none exactly when no title matches |
| MovieService.Poster | backend/app/services/movie_service.py:81-83 | the poster is the TMDB w500 prefix plus the path exactly when the raw path is a string longer than three characters; otherwise None |
| MovieService.Record | backend/app/services/movie_service.py:84-91 | a record copies title, overview, genres, release date and rating from its row and uses the poster rule; a non-numeric rating raises |
| MovieService.Records | backend/app/services/movie_service.py:78-92 | one record per pick, in order; it fails exactly when some picked row has a non-numeric rating |
| MovieService.GetRecommendations | backend/app/services/movie_service.py:70-92 | no title match gives the empty list. Otherwise the result holds the records of `Picks` of the anchor's similarity row, so a successful result has exactly min(`num`, rows − 1) entries |
| MovieService.Recommend | backend/app/routes/movie_routes.py:12-16 | the endpoint's service call as shipped (anchor taken by index label) with the default of ten: no match gives [], a label past the end raises, and a label in range gives the records of `Picks` of the row at that position, exactly min(10, rows − 1) of them on success |
| MovieService.RecommendRoute | backend/app/routes/movie_routes.py:12-16 | the reply echoes the query next to the service's list exactly when the service returns; no match gives the query with []; a service exception becomes a 500 |
| MovieService.RecommendCorrected | backend/app/routes/movie_routes.py:12-16 | the endpoint with the anchor taken by position: no match gives []; otherwise the records of the ten rows ranked after the top one for the anchor's position, exactly min(10, rows − 1) of them on success |
| MovieService.RecommendationsRanked | backend/app/services/movie_service.py:76-77 | the recommended rows are distinct, have non-increasing similarity to the anchor, and exclude the top-ranked row |
| MovieService.QueriedMovieNotRecommended | backend/app/services/movie_service.py:75-77 | with the anchor's row taken by position, a movie more similar to itself than to any other movie never recommends itself |
| MovieService.GetRecommendationsAsWritten | backend/app/services/movie_service.py:75-76 | the shipped code uses the anchor's index label as a row position: no match gives the empty list, a label past the end raises, and a label in range gives the records of `Picks` of the row at that position, exactly min(`num`, rows − 1) of them on success |
| MovieService.GappedCatalog | backend/app/services/movie_service.py:49 | a frame left with index labels 1 and 2 after dropping rows is well formed |
| MovieService.AsWrittenRecommendsQueriedMovie | backend/app/services/movie_service.py:75-76 | on that frame, the shipped code recommends the queried movie itself, while the positional anchor recommends the other movie |
| MovieService.RankOfDescendingPair | backend/app/services/movie_service.py:77 | scores [10, 3] rank as [0, 1] |
| MovieService.RankOfAscendingPair | backend/app/services/movie_service.py:77 | scores [3, 10] rank as [1, 0] |
| MovieService.AlphaAnchorsFirstRow | backend/app/services/movie_service.py:72-75 | "alpha" matches "Alpha" in the first row |
| MovieService.PicksOfPairs | backend/app/services/movie_service.py:77 | skipping the top entry of a two-row ranking leaves the other row |
| MovieService.PicksOfTwoRows | backend/app/services/movie_service.py:77 | with two rows, `[1:num+1]` keeps exactly the row ranked second |
| MovieService.RecordsOfGappedRows | backend/app/services/movie_service.py:84-91 | the records of the example rows copy their fields |
| StreamlitApp.Lines | backend/streamlit_app.py:59-61 | one written line per picked row, in order |
| StreamlitApp.Line | backend/streamlit_app.py:61 | a line starts with "- **", the title ("nan" when missing) and "** (", ends with the rating, and between them holds exactly the release date followed by ") — "; it is twelve characters longer than title, date and rating together |
| StreamlitApp.MatchIgnoresCase | backend/streamlit_app.py:51 | `case=False`: a title matches a query exactly when it matches the lower-cased query |
| StreamlitApp.WholeTitleMatches | backend/streamlit_app.py:51 | a query equal to a whole title, ignoring case, matches that title |
| StreamlitApp.RecommendBlock | backend/streamlit_app.py:47-61 | nothing is written unless the button is pressed with a non-empty query. Before the data is loaded this raises NameError. "No match found" is written exactly when no title contains the query (ignoring case). Otherwise a heading is written, then at most ten lines |
| StreamlitApp.ShownLinesFollowRanking | backend/streamlit_app.py:55-61 | the shown lines describe the rows ranked after the top one for the first matching row, in non-increasing score order, at most ten and at most rows − 1 |
| OcrRoutes.EngineFor | backend/app/routes/ocr_routes.py:18-23 | "easyocr" and "pytesseract" select their engines; every other name selects none |
| OcrRoutes.ExtractText | backend/app/routes/ocr_routes.py:13-28 | a failed save gives 500 with its message. The upload is saved before the method is checked, so an unknown method gives 400 "Invalid method" with the file written. After a save, the engine that runs is the one the method (default "easyocr") names. Its text is returned under the requested method, and its failure gives 500 with its message |
| OcrRoutes.DefaultRunsEasyOcr | backend/app/routes/ocr_routes.py:14-19 | without a method parameter EasyOCR runs and its text is returned under "easyocr" |
| OcrRoutes.SuccessIff | backend/app/routes/ocr_routes.py:15-28 | the reply is 200 exactly when the save worked, the method is known and that engine returned |
| TextRoutes.Validate | backend/app/routes/text_routes.py:9-16 | a body is accepted exactly when the prompt is present and max_length is in [10, 2048], top_k in [0, 1000] and num_return_sequences in [1, 5]. Absent fields default to 120, 50, 1 and no trimming. Each violated field is reported |
| TextRoutes.TrimOne | backend/app/routes/text_routes.py:39-42 | an output starting with the prompt equals the prompt, then some whitespace, then the result, and the result has no leading whitespace. Any other output is left unchanged |
| TextRoutes.TrimAll | backend/app/routes/text_routes.py:37-43 | trimming keeps the number and order of outputs, each trimmed on its own |
| TextRoutes.Generate | backend/app/routes/text_routes.py:23-47 | a blank prompt gives 400 and the generator is never called. A generator failure gives 500 with its message. Success echoes the prompt with one result per output: the outputs themselves without trim_prompt, and each output trimmed with it |
| TextRoutes.Handle | backend/app/routes/text_routes.py:9-25 | a validation failure gives 422 with the violations and the generator is not called. A valid body is handled exactly as `Generate` handles the validated request |
| TextRoutes.HandleOutcomes | backend/app/routes/text_routes.py:9-47 | the reply is 422 exactly for an invalid body, 400 "prompt must not be empty" exactly for a valid blank prompt, 200 exactly when the body is valid, the prompt is not blank and the generator returns, and 500 with the generator's message otherwise. The generator is called exactly for a valid, non-blank prompt |
| TextRoutes.UntrimmedOutputsUnchanged | backend/app/routes/text_routes.py:35-45 | without trim_prompt the outputs come back untouched |
| TextRoutes.TrimmedOutputsPositionwise | backend/app/routes/text_routes.py:35-43 | with trim_prompt, result i is output i trimmed |
| TextRoutes.DefaultsAccepted | backend/app/routes/text_routes.py:11-16 | a body with only a prompt is accepted with max_length 120, top_k 50, one sequence and no trimming |
| Reveal.Start | frontend/src/pages/TextGeneration.jsx:19-24 | starting a reveal replaces any running interval with one over the split words from index 0 and clears the display |
| Reveal.Tick | frontend/src/pages/TextGeneration.jsx:24-28 | a tick appends a space and the next word. The interval moves on to the following word, and stops exactly when the last word has been appended. Without an interval a tick does nothing |
| Reveal.Ticks | frontend/src/pages/TextGeneration.jsx:24-28 | ticking keeps a running interval pointing at a word that exists |
| Reveal.RevealProgress | frontend/src/pages/TextGeneration.jsx:19-28 | after k ≤ words ticks of a new reveal the display is `" " + words[j]` for j < k, whatever ran before. The interval is running exactly while words remain |
| Reveal.TicksFromFirstWord | frontend/src/pages/TextGeneration.jsx:23-28 | k ticks of an interval starting at word 0 on an empty display show `" " + words[j]` for j < k, and the interval runs while words remain |
| Reveal.RevealFinishes | frontend/src/pages/TextGeneration.jsx:19-28 | once every word has been appended, the display is a space followed by the text with every whitespace run collapsed to one space, and the interval is stopped |
| Reveal.RevealRunsUntilLastWord | frontend/src/pages/TextGeneration.jsx:26-27 | one tick before the last word the interval is still running, so the reveal never stops early |
| Reveal.RevealCompletes | frontend/src/pages/TextGeneration.jsx:24-28 | the interval has stopped once as many ticks as there are words have fired, and later ticks change nothing. With `RevealRunsUntilLastWord`, it runs for exactly that many ticks |
| Reveal.RevealEmptyText | frontend/src/pages/TextGeneration.jsx:22-27 | revealing "" takes one tick and shows a single space |
| Reveal.TicksCompose | frontend/src/pages/TextGeneration.jsx:24-28 | a + b ticks are a ticks followed by b ticks |
| Reveal.IdleTicks | frontend/src/pages/TextGeneration.jsx:27 | once the interval is cleared, ticks change nothing |
| Reveal.StaysStopped | frontend/src/pages/TextGeneration.jsx:27 | once the interval has stopped, any number of further ticks leaves the display as it is |
| Reveal.AccumIsJoin | frontend/src/pages/TextGeneration.jsx:25 | after k ticks the display is a space followed by the first k words joined with spaces |
| Reveal.TickDeferred | frontend/src/pages/TextGeneration.jsx:24-27 | with the state updater run after `i++`, a tick appends the word after the intended one, or "undefined" past the last word; the interval advances and stops as with `Tick` |
| Reveal.TicksDeferred | frontend/src/pages/TextGeneration.jsx:24-27 | repeated deferred ticks keep a running interval pointing at a word that exists |
| Reveal.SplitOfTwoWords | frontend/src/pages/TextGeneration.jsx:22 | two non-empty whitespace-free words joined by one space split into exactly those words |
| Reveal.DeferredTicksOfPair | frontend/src/pages/TextGeneration.jsx:24-27 | two deferred ticks over the words [a, b] show " b undefined" and stop |
| Reveal.TicksOfPair | frontend/src/pages/TextGeneration.jsx:24-27 | two immediate ticks over the words [a, b] show " a b" and stop |
| Reveal.StartOfTwoWords | frontend/src/pages/TextGeneration.jsx:19-23 | starting a reveal of two whitespace-free words joined by one space clears the display and points the interval at the first word |
| Reveal.DeferredRevealOfTwoWords | frontend/src/pages/TextGeneration.jsx:19-27 | revealing "a b" (any two whitespace-free words) with deferred updaters ends showing " b undefined" with the interval stopped |
| Reveal.RevealOfTwoWords | frontend/src/pages/TextGeneration.jsx:19-27 | revealing the same text with immediate updaters ends showing " a b" with the interval stopped |
| TextGenerationPage.Init | frontend/src/pages/TextGeneration.jsx:6-16 | the page mounts not generating, with an empty display, no running reveal and no results, and with an empty prompt, so generating only alerts |
| TextGenerationPage.InitWithinSliders | frontend/src/pages/TextGeneration.jsx:8-16 | the initial slider values lie within the slider ranges |
| TextGenerationPage.Blank | frontend/src/pages/TextGeneration.jsx:32 | `!prompt.trim()` holds exactly when every character of the prompt is JavaScript whitespace |
| TextGenerationPage.Generate | frontend/src/pages/TextGeneration.jsx:31-44 | a prompt that `trim()` empties only alerts: no request, page unchanged. Any other prompt sets `generating`, clears the display and changes nothing else (a running reveal keeps running), and its only effect is one request with the prompt, the slider values and trim_prompt true |
| TextGenerationPage.Settle | frontend/src/pages/TextGeneration.jsx:45-53 | `generating` is false after either outcome. On a reply the stored results become the reply's, and only the first result starts a reveal. With no results the display is left alone. A reply has no other effect. A failure logs to the console and shows the failure alert, and changes nothing else |
| TextGenerationPage.TickPage | frontend/src/pages/TextGeneration.jsx:24-28 | an interval tick advances the display by one `Tick` and leaves the prompt, the sliders, `generating` and the stored results alone |
| TextGenerationPage.ExportText | frontend/src/pages/TextGeneration.jsx:57 | export uses the displayed text when it is non-empty, otherwise all results joined by a blank line. It fails only when the stored results are undefined |
| TextGenerationPage.Copy | frontend/src/pages/TextGeneration.jsx:56-60 | copy writes the export text and alerts |
| TextGenerationPage.Share | frontend/src/pages/TextGeneration.jsx:62-74 | without native share: copy, then the "copied instead" alert. With native share the only effect is the share sheet with the export text, followed by a console log when it rejects. With the results undefined, `join` throws before anything happens, so there is no effect |
| TextGenerationPage.Download | frontend/src/pages/TextGeneration.jsx:76-85 | download saves the export text as generated_text.txt |
| TextGenerationPage.SettledRevealCompletes | frontend/src/pages/TextGeneration.jsx:45-47 | after a reply, ticking through the first result shows it in full |
| TextGenerationPage.GenerateRevealRound | frontend/src/pages/TextGeneration.jsx:31-53 | a full round sets `generating` while pending and clears it after. It stores the results and finally shows the first result in full |
| TextGenerationPage.OnlyFirstResultRevealed | frontend/src/pages/TextGeneration.jsx:45-57 | only the first result is revealed. With an empty display, export joins all results |
| TextGenerationPage.StaleTickAfterNewRequest | frontend/src/pages/TextGeneration.jsx:33-34 | a new request does not stop a running reveal. The next tick writes a word of the old result into the cleared display |
| TextGenerationPage.SliderRequestsAccepted | frontend/src/pages/TextGeneration.jsx:131-150 | every request the sliders allow passes the backend's field validation and asks for trimming |
| TextGenerationPage.SliderValuesValid | backend/app/routes/text_routes.py:9-16 | values inside the sliders' ranges pass every field bound of the request model unchanged |
| TextGenerationPage.BlanknessDisagreement | frontend/src/pages/TextGeneration.jsx:32 | a U+001C prompt passes the page's blank check yet the backend answers 400 |
| TextGenerationPage.ControlCharNotBlank | frontend/src/pages/TextGeneration.jsx:32 | `trim()` keeps U+001C, so a prompt of that character alone is not blank on the page |
| TextGenerationPage.ControlCharRejected | backend/app/routes/text_routes.py:24-25 | Python's `strip()` removes U+001C, so the route answers 400 for that prompt |
| MovieRecommendationPage.Init | frontend/src/pages/MovieRecommendation.jsx:9-38 | the page mounts with an empty query, no suggestions or recommendations, nothing loading or selected, and the first timer for the empty query, which clears the suggestions and sends nothing |
| MovieRecommendationPage.Type | frontend/src/pages/MovieRecommendation.jsx:36-38 | a changed query cancels the pending lookup and schedules one for the new query, and nothing else changes: suggestions, recommendations, loading and selection stay. An unchanged query changes nothing |
| MovieRecommendationPage.DebounceFires | frontend/src/pages/MovieRecommendation.jsx:18-36 | when the timer fires, a query under two UTF-16 units after trimming clears the suggestions and sends no request. Otherwise the only effect is one title lookup for the captured query |
| MovieRecommendationPage.TitlesSettle | frontend/src/pages/MovieRecommendation.jsx:23-34 | a reply replaces the suggestions wholesale; a failure leaves them unchanged |
| MovieRecommendationPage.Search | frontend/src/pages/MovieRecommendation.jsx:41-48 | an empty title does nothing. Otherwise loading is set, the title is marked selected, and the only effect is one request for it |
| MovieRecommendationPage.RecommendSettle | frontend/src/pages/MovieRecommendation.jsx:49-62 | loading is false after either outcome. A reply's list (or [] when absent) becomes the recommendations, and the effects are exactly two console logs and the success toast naming the title. A failure gives [], and the effects are exactly one console log and the error toast. Nothing else on the page changes |
| MovieRecommendationPage.SearchRound | frontend/src/pages/MovieRecommendation.jsx:41-62 | a search round sends one request for the title, is loading while pending and not after, keeps the title selected, shows the reply's list (or [] after a failure), and leaves query, suggestions and pending lookup alone |
| MovieRecommendationPage.TypeAll | frontend/src/pages/MovieRecommendation.jsx:36-38 | typing keeps any pending lookup on the current query |
| MovieRecommendationPage.TypingKeepsTimerOnQuery | frontend/src/pages/MovieRecommendation.jsx:36-38 | once a lookup is pending, more typing keeps exactly one pending, for the latest query |
| MovieRecommendationPage.BurstLeavesLastQueryPending | frontend/src/pages/MovieRecommendation.jsx:36-38 | after a burst that changed the query, the one pending lookup is for the last query typed |
| MovieRecommendationPage.BurstFiresOnce | frontend/src/pages/MovieRecommendation.jsx:17-38 | after a burst, the timer fires once: it looks up only the last query, or clears suggestions if that query is too short. A second firing does nothing |
| MovieRecommendationPage.ShowRating | frontend/src/pages/MovieRecommendation.jsx:166 | "N/A" exactly for a missing or zero rating |
| MovieRecommendationPage.OrPlaceholder | frontend/src/pages/MovieRecommendation.jsx:170-177 | a missing or empty text shows the placeholder; any other text shows itself |
| MovieRecommendationPage.ShowCard | frontend/src/pages/MovieRecommendation.jsx:164-177 | a card shows "N/A" exactly for a missing or zero rating and the rating itself otherwise, and each of release date, overview and genres shows itself when present and non-empty, otherwise its placeholder |
| MovieRecommendationPage.CardOf | backend/app/services/movie_service.py:84-91 | the JSON card of a backend record carries every field of the record |
| MovieRecommendationPage.BareCardShowsPlaceholders | frontend/src/pages/MovieRecommendation.jsx:164-177 | a card with only a title shows "N/A", "Unknown", "No description available." and "Unknown" |
| MovieRecommendationPage.BackendRecordPlaceholders | frontend/src/pages/MovieRecommendation.jsx:164-177 | a backend record shows "N/A" exactly for rating 0 and placeholders exactly where its texts are empty |
| ImageToTextOcrPage.Init | frontend/src/pages/ImageToTextOCR.jsx:17-20 | the page starts with no file and nothing loading or shown. Copy and download do nothing, and upload only warns |
| ImageToTextOcrPage.Drop | frontend/src/pages/ImageToTextOCR.jsx:24-28 | dropping selects the first accepted file (none when nothing was accepted), clears the result and hides the text |
| ImageToTextOcrPage.Upload | frontend/src/pages/ImageToTextOCR.jsx:76-87 | without a file: a warning toast, no request, page unchanged. Otherwise loading is set and the text hidden, and the only effect is one request carrying the file and "easyocr" |
| ImageToTextOcrPage.UploadSettle | frontend/src/pages/ImageToTextOCR.jsx:88-99 | success shows the reply's text and its only effect is the "Text extracted successfully!" toast. Failure leaves the result alone and only toasts an error. Loading is false either way |
| ImageToTextOcrPage.Copy | frontend/src/pages/ImageToTextOCR.jsx:32-36 | copying does nothing exactly when the result is empty; otherwise it writes the result to the clipboard and toasts "Copied to clipboard!", and nothing else |
| ImageToTextOcrPage.Download | frontend/src/pages/ImageToTextOCR.jsx:39-50 | download does nothing exactly when the result is empty; otherwise it saves the result as extracted_text.txt and toasts "Text downloaded!", and nothing else |
| ImageToTextOcrPage.Share | frontend/src/pages/ImageToTextOCR.jsx:53-67 | native share is used only when it exists and there is text. Its effects are then exactly the share sheet, followed by the error toast when it rejects. Otherwise it copies, then always toasts "copied instead" |
| ImageToTextOcrPage.Clear | frontend/src/pages/ImageToTextOCR.jsx:70-74 | clear empties the result and hides the text |
| ImageToTextOcrPage.ShareWithoutTextOnlyNotifies | frontend/src/pages/ImageToTextOCR.jsx:53-66 | with no text, share copies nothing but still claims it copied |
| ImageToTextOcrPage.UploadRound | frontend/src/pages/ImageToTextOCR.jsx:76-99 | an upload round sends the file with "easyocr" and then shows exactly the returned text |
| ImageToTextOcrPage.ExportAfterRound | frontend/src/pages/ImageToTextOCR.jsx:32-99 | after a round that returned some text, copy writes exactly that text and download saves exactly that text |
| ImageToTextOcrPage.ClearSilencesExport | frontend/src/pages/ImageToTextOCR.jsx:53-74 | after clear, copy and download do nothing and share only shows its "copied instead" notice |
| ImageUploader.Init | frontend/src/components/ImageUploader.jsx:8-9 | the component starts not loading and without a file, so upload only warns |
| ImageUploader.Drop | frontend/src/components/ImageUploader.jsx:13 | dropping selects the first accepted file |
| ImageUploader.Upload | frontend/src/components/ImageUploader.jsx:16-26 | without a file: a warning, no request, and `onResult` is not called. Otherwise loading is set and the only effect is one request carrying the file and "easyocr" |
| ImageUploader.UploadSettle | frontend/src/components/ImageUploader.jsx:27-37 | on success the effects are exactly `onResult` with the body and then the success toast. On failure `onResult` is never called and the only effect is the error toast. Loading is false either way |
| ImageUploader.RoundDeliversOnce | frontend/src/components/ImageUploader.jsx:16-37 | over a round `onResult` is called once on success and never on failure. Loading is set while pending and cleared after |
| ImageUploader.DeliveriesAppend | frontend/src/components/ImageUploader.jsx:31 | deliveries of consecutive effect lists add up |
| Effects.Calls | frontend/src/components/ImageUploader.jsx:28 | the requests a step sends, in order, at most one per effect |
| Effects.CallsMembership | frontend/src/components/ImageUploader.jsx:28 | a call is among a step's requests exactly when the step's effects hold a request for it |
| Effects.NoRequestNoCalls | frontend/src/pages/MovieRecommendation.jsx:49-62 | effects without a request send nothing |

## Findings

| source | as written | input that shows it | evidently intended | confidence | as-written member | corrected member |
|---|---|---|---|---|---|---|
| backend/app/services/movie_service.py:75-76 | `idx = movies[mask].index[0]` is a pandas index label. It is used as a row position in `similarity[idx]`, after `dropna` at line 49 has left gaps in the labels | two movies with labels 1 and 2 (the row labelled 0 was dropped) and similarity [[10, 3], [3, 10]]. Querying "alpha" recommends Alpha itself (`AsWrittenRecommendsQueriedMovie`). A label past the end raises IndexError | the similarity row of the matched movie's position, so a movie is compared with itself first and never recommends itself (`QueriedMovieNotRecommended`) | high; not executed | MovieService.GetRecommendationsAsWritten | MovieService.GetRecommendations |
| frontend/src/pages/TextGeneration.jsx:24-27 | the updater `(prev) => prev + " " + words[i]` reads `i` when React runs it; when React defers it until after `i++`, it reads the next word | any two-word text such as "a b": the display ends as " b undefined" instead of " a b" (`DeferredRevealOfTwoWords`) | each tick appends the word it was meant to append, so the whole text appears | medium; depends on when React runs the updater; not executed | Reveal.TickDeferred | Reveal.Tick |

## Left out

- Temperature and top-p (float fields and sliders) and their validation errors: they need floating point.
- Pydantic type coercion, malformed JSON bodies and explicit `null` values: integer fields are modelled as integers and an absent field as None. An explicit `null` for the prompt or an integer field is rejected with 422 by the source, and the model has no value for it.
- The TF-IDF vectors and the similarity matrix are not modelled. The matrix is an input, and scores are integers that stand for any totally ordered score.
- Dataset and pickle downloading and loading, and file saving: the save is an input outcome.
- The EasyOCR, Tesseract and text-generation wrappers: their output is an input string or a failure.
- `/movies/titles` and the app's start-up: movie_routes.py:2 imports `get_movie_titles`, which movie_service.py does not define. Importing the movie routes therefore raises ImportError, and since main.py:5 imports them, the FastAPI app as written does not start, so no backend route is reachable and the page's title lookup never succeeds. The route members (`TextRoutes.Handle`, `OcrRoutes.ExtractText`, `MovieService.RecommendRoute`) model each handler as if the import resolved. The titles route itself is not modelled, because the function it calls does not exist.
- Strings.Lower: folds ASCII capitals only. Python's `lower()` also folds the capitals of other scripts (É, Σ, Д, …), so titles that differ from a query only in such letters are matched by the source but not by `MovieService.Anchor` or `StreamlitApp.TitleMatches`.
- StreamlitApp.MatchIgnoresCase: pandas `str.contains` reads the query as a regular expression (with Unicode case folding), while the model reads it as a plain substring after ASCII lower-casing. Case-insensitivity is stated only for that reading.
- StreamlitApp.WholeTitleMatches: holds only for queries without regex metacharacters. In the source, "(500) Days of Summer" does not match itself (the brackets form a group), and a query with an unbalanced "(" raises.
- The Streamlit pickled frame is assumed to have a default index. Its contents are not part of this model.
- `num` in `get_recommendations` is a natural number. Negative values (Python negative slicing) are not modelled, because the only caller passes the default.
- Float formatting (`toFixed(1)`, the f-string of `vote_average`) is left abstract. A NaN rating is not modelled.
- Clipboard writes are assumed to succeed. A rejected write, which would skip the later toasts, is not modelled.
- The buttons' `disabled` attributes while a request is pending, component unmount cleanup, and a throwing `onResult` callback are not modelled.
- A reply to the title lookup without a `results` field is not modelled.
- MovieService.GetRecommendationsAsWritten: the wrong anchor is exhibited on one catalog (`AsWrittenRecommendsQueriedMovie`), not characterised for all catalogs.
- MovieRecommendationPage.Search: the title is placed in the URL without `encodeURIComponent`, so '&', '#', '+' and '%' change what the backend receives; the model sends the title unchanged.
- MovieRecommendationPage.DebounceFires: the query is placed in the URL without encoding, as for `Search`; the model sends the query unchanged.
- Reveal.Tick: assumes React runs the state updater before the next `i++`. The other order is modelled by `TickDeferred` and listed under Findings.
- Strings.StripEndsNonSpace: the piece property of `Strip` is stated once for any two cuts meeting the `LStrip` and `RStrip` contracts (`InnerPiece`), not as a postcondition of `Strip` itself.

=== FILE: effects.dfy ===
/**
 * Effects the browser pages ask the environment to perform. The pages are
 * modelled as pure transition functions that return their new state and a
 * list of these effects; the network, notifications, the clipboard, the
 * share sheet and file downloads never happen inside the model.
 */
module Effects {

  /** Tone of a react-toastify notification. */
  datatype Tone = Success | Info | Warning | Failure

  /** A file chosen in a drop zone; only its identity matters here. */
  datatype ImageFile = ImageFile(name: string, id: nat)

  /** The JSON body the generation page posts. */
  datatype GenerateBody = GenerateBody(
    prompt: string,
    maxLength: int,
    topK: int,
    numReturnSequences: int,
    trimPrompt: bool)

  /** The HTTP calls the pages issue, one constructor per endpoint. */
  datatype HttpCall =
    | PostGenerate(body: GenerateBody)
    | GetTitles(query: string)
    | GetRecommendations(title: string)
    | PostExtract(file: ImageFile, ocrMethod: string)

  datatype Effect =
    | Request(call: HttpCall)
    | Toast(tone: Tone, message: string)
    | Alert(message: string)
    | WriteClipboard(text: string)
    | OpenShareSheet(title: string, text: string)
    | SaveFile(filename: string, text: string)
    | ConsoleLog
    | DeliverResult(body: ExtractBody)

  /** The JSON body of a successful OCR extraction: `{method, text}`. */
  datatype ExtractBody = ExtractBody(ocrMethod: string, text: string)

  /** The calls a list of effects issues. */
  function Calls(effects: seq<Effect>): (calls: seq<HttpCall>)
    ensures |calls| <= |effects|
  {
    if effects == [] then []
    else (if effects[0].Request? then [effects[0].call] else []) + Calls(effects[1..])
  }

  /** A call is issued exactly when the effects hold a request for it. */
  lemma {:induction false} CallsMembership(effects: seq<Effect>, c: HttpCall)
    ensures c in Calls(effects) <==> Request(c) in effects
    decreases |effects|
  {
    if effects != [] {
      CallsMembership(effects[1..], c);
      assert effects == [effects[0]] + effects[1..];
    }
  }

  /** Effects without a request issue no calls. */
  lemma {:induction false} NoRequestNoCalls(effects: seq<Effect>)
    requires forall k :: 0 <= k < |effects| ==> !effects[k].Request?
    ensures Calls(effects) == []
    decreases |effects|
  {
    if effects != [] {
      NoRequestNoCalls(effects[1..]);
    }
  }

  /** How many times a list of effects hands a reply body to a result callback. */
  function Deliveries(effects: seq<Effect>): nat
  {
    if effects == [] then 0
    else (if effects[0].DeliverResult? then 1 else 0) + Deliveries(effects[1..])
  }
}

=== FILE: image_to_text_ocr.dfy ===
/**
 * The OCR page: a drop zone that selects one image, an upload that always
 * asks for the EasyOCR engine, and copy, download, share and clear actions
 * on the extracted text. The reply to the upload arrives as its own event.
 */
module ImageToTextOcrPage {
  import opened Wrappers
  import opened Effects

  datatype Page = Page(file: Option<ImageFile>, result: string, loading: bool, showText: bool)

  datatype Step = Step(page: Page, effects: seq<Effect>)

  /** What `navigator.share` offers: nothing, a share that completes, or one that rejects. */
  datatype ShareSupport = NoShare | ShareCompletes | ShareRejects

  const UploadMethod := "easyocr"

  function Init(): (p: Page)
    ensures p.file.None? && !p.loading && !p.showText
    ensures Copy(p) == [] && Download(p) == []
    ensures Upload(p) == Step(p, [Toast(Warning, "Please select an image first!")])
  {
    Page(None, "", false, false)
  }

  /** `onDrop`: the first accepted file (none if nothing was accepted) replaces the selection. */
  function Drop(p: Page, accepted: seq<ImageFile>): (s: Step)
    ensures s.page.file == (if accepted == [] then None else Some(accepted[0]))
    ensures s.page.result == "" && !s.page.showText && s.page.loading == p.loading
    ensures s.effects == []
  {
    Step(Page(if accepted == [] then None else Some(accepted[0]), "", p.loading, false), [])
  }

  /** `handleUpload` up to the request. */
  function Upload(p: Page): (s: Step)
    ensures p.file.None? ==> s == Step(p, [Toast(Warning, "Please select an image first!")])
    ensures p.file.None? <==> Calls(s.effects) == []
    ensures p.file.Some? ==>
      && s.page == p.(loading := true, showText := false)
      && Calls(s.effects) == [PostExtract(p.file.value, UploadMethod)]
      && s.effects == [Request(PostExtract(p.file.value, UploadMethod))]
  {
    match p.file
    case None => Step(p, [Toast(Warning, "Please select an image first!")])
    case Some(f) => Step(p.(loading := true, showText := false), [Request(PostExtract(f, UploadMethod))])
  }

  /** The rest of `handleUpload`: the reply's text, or the error toast. */
  function UploadSettle(p: Page, reply: Option<ExtractBody>): (s: Step)
    ensures !s.page.loading && s.page.file == p.file
    ensures reply.Some? ==> s.page.result == reply.value.text && s.page.showText
    ensures reply.Some? ==> s.page == p.(result := reply.value.text, showText := true, loading := false)
    ensures reply.Some? ==> s.effects == [Toast(Success, "Text extracted successfully!")]
    ensures reply.None? ==> s.page == p.(loading := false) && s.effects == [Toast(Failure, "Failed to extract text!")]
  {
    match reply
    case Some(body) =>
      Step(p.(result := body.text, showText := true, loading := false), [Toast(Success, "Text extracted successfully!")])
    case None =>
      Step(p.(loading := false), [Toast(Failure, "Failed to extract text!")])
  }

  function Copy(p: Page): (e: seq<Effect>)
    ensures p.result == "" <==> e == []
    ensures p.result != "" ==> WriteClipboard(p.result) in e
    ensures p.result != "" ==> e == [WriteClipboard(p.result), Toast(Success, "Copied to clipboard!")]
  {
    if p.result == "" then [] else [WriteClipboard(p.result), Toast(Success, "Copied to clipboard!")]
  }

  function Download(p: Page): (e: seq<Effect>)
    ensures p.result == "" <==> e == []
    ensures p.result != "" ==> SaveFile("extracted_text.txt", p.result) in e
    ensures p.result != "" ==> e == [SaveFile("extracted_text.txt", p.result), Toast(Info, "Text downloaded!")]
  {
    if p.result == "" then []
    else [SaveFile("extracted_text.txt", p.result), Toast(Info, "Text downloaded!")]
  }

  /**
   * `handleShare`: the share sheet only when it exists and there is text;
   * otherwise the copy path followed by the "copied instead" notice.
   */
  function Share(p: Page, support: ShareSupport): (e: seq<Effect>)
    ensures !support.NoShare? && p.result != "" ==>
      && |e| >= 1 && e[0] == OpenShareSheet("Extracted Text", p.result)
      && (Toast(Failure, "Sharing cancelled or failed!") in e <==> support.ShareRejects?)
    ensures support.ShareCompletes? && p.result != "" ==> e == [OpenShareSheet("Extracted Text", p.result)]
    ensures support.ShareRejects? && p.result != "" ==>
      e == [OpenShareSheet("Extracted Text", p.result), Toast(Failure, "Sharing cancelled or failed!")]
    ensures support.NoShare? || p.result == "" ==>
      e == Copy(p) + [Toast(Info, "Sharing not supported. Text copied instead!")]
  {
    if !support.NoShare? && p.result != "" then
      var sheet := OpenShareSheet("Extracted Text", p.result);
      if support.ShareRejects? then [sheet, Toast(Failure, "Sharing cancelled or failed!")] else [sheet]
    else
      Copy(p) + [Toast(Info, "Sharing not supported. Text copied instead!")]
  }

  function Clear(p: Page): (s: Step)
    ensures s.page == p.(result := "", showText := false)
    ensures s.effects == [Toast(Info, "Cleared output!")]
  {
    Step(p.(result := "", showText := false), [Toast(Info, "Cleared output!")])
  }

  /** With nothing extracted, sharing copies nothing yet still claims it copied. */
  lemma {:induction false} ShareWithoutTextOnlyNotifies(p: Page, support: ShareSupport)
    requires p.result == ""
    ensures Share(p, support) == [Toast(Info, "Sharing not supported. Text copied instead!")]
  {
  }

  /**
   * An upload round: the request carries the selected file and "easyocr",
   * and on success the page shows exactly the returned text.
   */
  lemma {:induction false} UploadRound(p: Page, body: ExtractBody)
    requires p.file.Some?
    ensures
      var sent := Upload(p);
      var done := UploadSettle(sent.page, Some(body));
      && sent.page.loading && !sent.page.showText
      && Calls(sent.effects) == [PostExtract(p.file.value, "easyocr")]
      && done.page == Page(p.file, body.text, false, true)
  {
  }

  /**
   * After a successful round with some text, copy writes exactly that text
   * to the clipboard and download saves exactly that text.
   */
  lemma {:induction false} ExportAfterRound(p: Page, body: ExtractBody)
    requires p.file.Some? && body.text != ""
    ensures
      var done := UploadSettle(Upload(p).page, Some(body)).page;
      && Copy(done) == [WriteClipboard(body.text), Toast(Success, "Copied to clipboard!")]
      && Download(done) == [SaveFile("extracted_text.txt", body.text), Toast(Info, "Text downloaded!")]
  {
  }

  /**
   * After clearing, copy and download do nothing and share only shows its
   * notice: no clipboard write, file or share sheet until new text arrives.
   */
  lemma {:induction false} ClearSilencesExport(p: Page, support: ShareSupport)
    ensures
      var cleared := Clear(p).page;
      && Copy(cleared) == [] && Download(cleared) == []
      && Share(cleared, support) == [Toast(Info, "Sharing not supported. Text copied instead!")]
  {
  }
}

=== FILE: image_uploader.dfy ===
/**
 * The reusable uploader component: it keeps the selected image and a
 * loading flag, and hands the reply body to its `onResult` callback.
 */
module ImageUploader {
  import opened Wrappers
  import opened Effects

  datatype Uploader = Uploader(file: Option<ImageFile>, loading: bool)

  datatype Step = Step(state: Uploader, effects: seq<Effect>)

  function Init(): (u: Uploader)
    ensures !u.loading
    ensures Upload(u) == Step(u, [Toast(Warning, "Please select an image first!")])
  {
    Uploader(None, false)
  }

  function Drop(u: Uploader, accepted: seq<ImageFile>): (r: Uploader)
    ensures r.file == (if accepted == [] then None else Some(accepted[0]))
    ensures r.loading == u.loading
  {
    u.(file := if accepted == [] then None else Some(accepted[0]))
  }

  /** `handleUpload` up to the request. */
  function Upload(u: Uploader): (s: Step)
    ensures u.file.None? ==> s == Step(u, [Toast(Warning, "Please select an image first!")])
    ensures u.file.None? <==> Calls(s.effects) == []
    ensures u.file.Some? ==>
      && s.state == u.(loading := true)
      && Calls(s.effects) == [PostExtract(u.file.value, "easyocr")]
      && s.effects == [Request(PostExtract(u.file.value, "easyocr"))]
    ensures Deliveries(s.effects) == 0
  {
    match u.file
    case None => Step(u, [Toast(Warning, "Please select an image first!")])
    case Some(f) => Step(u.(loading := true), [Request(PostExtract(f, "easyocr"))])
  }

  /** The rest of `handleUpload`: the body goes to `onResult` only on success. */
  function UploadSettle(u: Uploader, reply: Option<ExtractBody>): (s: Step)
    ensures !s.state.loading && s.state.file == u.file
    ensures reply.Some? ==> Deliveries(s.effects) == 1 && DeliverResult(reply.value) in s.effects
    ensures reply.Some? ==> s.effects == [DeliverResult(reply.value), Toast(Success, "Text extracted successfully!")]
    ensures reply.None? ==> Deliveries(s.effects) == 0 && s.effects == [Toast(Failure, "Failed to extract text!")]
  {
    match reply
    case Some(body) =>
      var effects := [DeliverResult(body), Toast(Success, "Text extracted successfully!")];
      assert Deliveries(effects[1..]) == 0 by {
        assert effects[1..][1..] == [];
      }
      Step(u.(loading := false), effects)
    case None => Step(u.(loading := false), [Toast(Failure, "Failed to extract text!")])
  }

  /**
   * Over a whole round, `onResult` is called once with the reply body when
   * the request succeeds, never otherwise, and `loading` ends false.
   */
  lemma {:induction false} RoundDeliversOnce(u: Uploader, reply: Option<ExtractBody>)
    requires u.file.Some?
    ensures
      var sent := Upload(u);
      var done := UploadSettle(sent.state, reply);
      && sent.state.loading && !done.state.loading
      && Deliveries(sent.effects + done.effects) == (if reply.Some? then 1 else 0)
  {
    var sent := Upload(u);
    DeliveriesAppend(sent.effects, UploadSettle(sent.state, reply).effects);
  }

  lemma {:induction false} DeliveriesAppend(a: seq<Effect>, b: seq<Effect>)
    ensures Deliveries(a + b) == Deliveries(a) + Deliveries(b)
    decreases |a|
  {
    if a != [] {
      assert (a + b)[1..] == a[1..] + b;
      DeliveriesAppend(a[1..], b);
    } else {
      assert a + b == b;
    }
  }
}

=== FILE: lookup.dfy ===
/**
 * The anchor selection shared by both recommenders: the first row that
 * satisfies a test (pandas `df[mask].index[0]` on a default index).
 */
module Lookup {
  import opened Wrappers

  function FirstWhere<T>(s: seq<T>, p: T -> bool, start: nat): (r: Option<nat>)
    requires start <= |s|
    ensures r.Some? ==> start <= r.value < |s| && p(s[r.value])
    ensures r.Some? ==> forall k :: start <= k < r.value ==> !p(s[k])
    ensures r.None? <==> forall k :: start <= k < |s| ==> !p(s[k])
    decreases |s| - start
  {
    if start == |s| then None
    else if p(s[start]) then Some(start)
    else FirstWhere(s, p, start + 1)
  }
}

=== FILE: movie_recommendation.dfy ===
/**
 * The movie recommendation page: a debounced title lookup driven by the
 * query field, the recommendation request sent when a suggestion is
 * picked, and the placeholders shown for missing card fields. The 300 ms
 * timer is a pending lookup that `DebounceFires` consumes; time itself is
 * not modelled.
 */
module MovieRecommendationPage {
  import opened Wrappers
  import opened Strings
  import opened Effects
  import MovieService

  /** A recommendation as the page receives it in JSON; absent fields are None. */
  datatype Card = Card(
    title: Option<string>,
    posterPath: Option<string>,
    rating: Option<real>,
    releaseDate: Option<string>,
    overview: Option<string>,
    genres: Option<string>)

  /**
   * `pending` is the lookup the debounce timer will run, carrying the query
   * its closure captured; None when no timer is set.
   */
  datatype Page = Page(
    query: string,
    suggestions: seq<string>,
    recommendations: seq<Card>,
    loading: bool,
    selected: Option<string>,
    pending: Option<string>)

  datatype Step = Step(page: Page, effects: seq<Effect>)

  /** The reply to the recommendation request: a body (maybe without the list) or a rejection. */
  datatype RecommendReply = Body(recommendations: Option<seq<Card>>) | Rejected

  const MinQueryLength := 2

  /** After mounting, the effect has run once for the empty query. */
  function Init(): (p: Page)
    ensures Inv(p) && !p.loading && p.selected.None?
    ensures p.suggestions == [] && p.recommendations == []
    ensures DebounceFires(p) == Step(p.(pending := None), [])
  {
    Page("", [], [], false, None, Some(""))
  }

  /** A pending lookup is always for the current query. */
  predicate Inv(p: Page) {
    p.pending.None? || p.pending == Some(p.query)
  }

  /**
   * Typing: a changed query re-runs the effect, whose cleanup cancels the
   * old timer before a new one is set; an unchanged query runs nothing.
   */
  function Type(p: Page, q: string): (s: Step)
    requires Inv(p)
    ensures Inv(s.page) && s.page.query == q && s.effects == []
    ensures q != p.query ==> s.page == p.(query := q, pending := Some(q))
    ensures q == p.query ==> s.page == p
  {
    if q == p.query then Step(p, [])
    else Step(p.(query := q, pending := Some(q)), [])
  }

  /** The debounce timer fires and runs `fetchSuggestions` for its captured query. */
  function DebounceFires(p: Page): (s: Step)
    ensures s.page.pending.None?
    ensures p.pending.None? ==> s == Step(p, [])
    ensures p.pending.Some? && Utf16Length(Strip(JavaScript, p.pending.value)) < MinQueryLength ==>
      s.page == p.(pending := None, suggestions := []) && Calls(s.effects) == [] && s.effects == []
    ensures p.pending.Some? && Utf16Length(Strip(JavaScript, p.pending.value)) >= MinQueryLength ==>
      s.page == p.(pending := None) && Calls(s.effects) == [GetTitles(p.pending.value)]
      && s.effects == [Request(GetTitles(p.pending.value))]
  {
    match p.pending
    case None => Step(p, [])
    case Some(q) =>
      if Utf16Length(Strip(JavaScript, q)) < MinQueryLength then
        Step(p.(pending := None, suggestions := []), [])
      else
        Step(p.(pending := None), [Request(GetTitles(q))])
  }

  /**
   * The title lookup settles: a reply replaces the suggestions wholesale,
   * a failure only logs. Nothing checks that the reply belongs to the
   * latest query.
   */
  function TitlesSettle(p: Page, reply: Option<seq<string>>): (s: Step)
    ensures reply.Some? ==> s.page == p.(suggestions := reply.value)
    ensures reply.None? ==> s.page == p
    ensures s.effects == [ConsoleLog]
  {
    match reply
    case Some(titles) => Step(p.(suggestions := titles), [ConsoleLog])
    case None => Step(p, [ConsoleLog])
  }

  /** `handleSearch` up to the request. */
  function Search(p: Page, title: string): (s: Step)
    ensures title == "" ==> s == Step(p, [])
    ensures title != "" ==>
      && s.page == p.(loading := true, selected := Some(title))
      && Calls(s.effects) == [GetRecommendations(title)]
      && s.effects == [Request(GetRecommendations(title))]
  {
    if title == "" then Step(p, [])
    else Step(p.(loading := true, selected := Some(title)), [Request(GetRecommendations(title))])
  }

  /** The rest of `handleSearch(title)` once its request settles. */
  function RecommendSettle(p: Page, title: string, reply: RecommendReply): (s: Step)
    ensures !s.page.loading
    ensures reply.Body? ==> s.page == p.(recommendations := reply.recommendations.GetOr([]), loading := false)
    ensures reply.Body? ==> Toast(Success, "Showing recommendations for \"" + title + "\"") in s.effects
    ensures reply.Rejected? ==> s.page == p.(recommendations := [], loading := false)
    ensures reply.Rejected? ==> Toast(Failure, "No recommendations found!") in s.effects
    ensures reply.Body? ==> s.effects == [ConsoleLog, ConsoleLog, Toast(Success, "Showing recommendations for \"" + title + "\"")]
    ensures reply.Rejected? ==> s.effects == [ConsoleLog, Toast(Failure, "No recommendations found!")]
    ensures Calls(s.effects) == []
  {
    match reply
    case Body(cards) =>
      var effects := [ConsoleLog, ConsoleLog, Toast(Success, "Showing recommendations for \"" + title + "\"")];
      NoRequestNoCalls(effects);
      Step(p.(recommendations := cards.GetOr([]), loading := false), effects)
    case Rejected =>
      var effects := [ConsoleLog, Toast(Failure, "No recommendations found!")];
      NoRequestNoCalls(effects);
      Step(p.(recommendations := [], loading := false), effects)
  }

  /**
   * A search round: picking a non-empty title sends one recommendation
   * request for it; once it settles, loading is over, the title stays
   * selected, and the cards are the reply's list (or none after a failure,
   * or a body without a list). The query, suggestions and pending lookup
   * are untouched.
   */
  lemma {:induction false} SearchRound(p: Page, title: string, reply: RecommendReply)
    requires title != ""
    ensures
      var sent := Search(p, title);
      var done := RecommendSettle(sent.page, title, reply);
      && Calls(sent.effects) == [GetRecommendations(title)]
      && sent.page.loading && !done.page.loading
      && done.page.selected == Some(title)
      && done.page.recommendations == (if reply.Body? then reply.recommendations.GetOr([]) else [])
      && done.page.query == p.query && done.page.suggestions == p.suggestions && done.page.pending == p.pending
  {
  }

  /** The page after typing each query of a burst in turn, before any timer fires. */
  function TypeAll(p: Page, qs: seq<string>): (r: Page)
    requires Inv(p)
    ensures Inv(r)
    decreases |qs|
  {
    if qs == [] then p else TypeAll(Type(p, qs[0]).page, qs[1..])
  }

  lemma {:induction false} TypingKeepsTimerOnQuery(p: Page, qs: seq<string>)
    requires Inv(p) && p.pending == Some(p.query) && |qs| > 0
    ensures TypeAll(p, qs).pending == Some(qs[|qs| - 1])
    ensures TypeAll(p, qs).query == qs[|qs| - 1]
    decreases |qs|
  {
    var next := Type(p, qs[0]).page;
    if |qs| > 1 {
      TypingKeepsTimerOnQuery(next, qs[1..]);
    } else {
      assert TypeAll(next, qs[1..]) == next;
    }
  }

  /**
   * Debounce: after a burst of typing that changed the query at least once,
   * exactly one lookup is pending, and it is for the last query typed.
   */
  lemma {:induction false} BurstLeavesLastQueryPending(p: Page, qs: seq<string>)
    requires Inv(p)
    requires exists i :: 0 <= i < |qs| && qs[i] != p.query
    ensures TypeAll(p, qs).pending == Some(qs[|qs| - 1])
    ensures TypeAll(p, qs).query == qs[|qs| - 1]
    decreases |qs|
  {
    var next := Type(p, qs[0]).page;
    if qs[0] != p.query {
      if |qs| > 1 {
        TypingKeepsTimerOnQuery(next, qs[1..]);
      } else {
        assert TypeAll(next, qs[1..]) == next;
      }
    } else {
      var i :| 0 <= i < |qs| && qs[i] != p.query;
      assert qs[1..][i - 1] == qs[i];
      BurstLeavesLastQueryPending(next, qs[1..]);
    }
  }

  /**
   * After a burst the timer fires once and looks up only the last query
   * (or clears the suggestions when it is too short); a second firing
   * does nothing.
   */
  lemma {:induction false} BurstFiresOnce(p: Page, qs: seq<string>)
    requires Inv(p)
    requires exists i :: 0 <= i < |qs| && qs[i] != p.query
    ensures
      var last := qs[|qs| - 1];
      var fired := DebounceFires(TypeAll(p, qs));
      && (Utf16Length(Strip(JavaScript, last)) >= MinQueryLength ==> Calls(fired.effects) == [GetTitles(last)])
      && (Utf16Length(Strip(JavaScript, last)) < MinQueryLength ==>
            Calls(fired.effects) == [] && fired.page.suggestions == [])
      && DebounceFires(fired.page) == Step(fired.page, [])
  {
    BurstLeavesLastQueryPending(p, qs);
  }

  /** How a rating is shown: "N/A" for a missing or zero rating, else one decimal. */
  datatype RatingText = NotAvailable | OneDecimal(value: real)

  function ShowRating(rating: Option<real>): (r: RatingText)
    ensures r.NotAvailable? <==> rating.None? || rating.value == 0.0
    ensures r.OneDecimal? ==> r.value == rating.value
  {
    if rating.None? || rating.value == 0.0 then NotAvailable else OneDecimal(rating.value)
  }

  /** JavaScript `value || placeholder` on an optional string. */
  function OrPlaceholder(value: Option<string>, placeholder: string): (r: string)
    ensures value.None? || value.value == "" ==> r == placeholder
    ensures value.Some? && value.value != "" ==> r == value.value
  {
    if value.Some? && value.value != "" then value.value else placeholder
  }

  /** The texts a recommendation card shows. */
  datatype CardView = CardView(rating: RatingText, releaseDate: string, overview: string, genres: string)

  function ShowCard(c: Card): (v: CardView)
    ensures v.rating.NotAvailable? <==> c.rating.None? || c.rating.value == 0.0
    ensures v.rating.OneDecimal? ==> v.rating.value == c.rating.value
    ensures c.releaseDate.Some? && c.releaseDate.value != "" ==> v.releaseDate == c.releaseDate.value
    ensures c.releaseDate.None? || c.releaseDate.value == "" ==> v.releaseDate == "Unknown"
    ensures c.overview.Some? && c.overview.value != "" ==> v.overview == c.overview.value
    ensures c.overview.None? || c.overview.value == "" ==> v.overview == "No description available."
    ensures c.genres.Some? && c.genres.value != "" ==> v.genres == c.genres.value
    ensures c.genres.None? || c.genres.value == "" ==> v.genres == "Unknown"
  {
    CardView(
      ShowRating(c.rating),
      OrPlaceholder(c.releaseDate, "Unknown"),
      OrPlaceholder(c.overview, "No description available."),
      OrPlaceholder(c.genres, "Unknown"))
  }

  /** A card with nothing but a title shows every placeholder and never fails. */
  lemma {:induction false} BareCardShowsPlaceholders(title: string)
    ensures ShowCard(Card(Some(title), None, None, None, None, None))
      == CardView(NotAvailable, "Unknown", "No description available.", "Unknown")
  {
  }

  /** The JSON card the backend's record becomes: every field present. */
  function CardOf(r: MovieService.Recommendation): (c: Card)
    ensures c.title == Some(r.title) && c.posterPath == r.posterPath && c.rating == Some(r.rating)
    ensures c.releaseDate == Some(r.releaseDate) && c.overview == Some(r.overview) && c.genres == Some(r.genres)
  {
    Card(Some(r.title), r.posterPath, Some(r.rating), Some(r.releaseDate), Some(r.overview), Some(r.genres))
  }

  /**
   * A backend record shows a placeholder exactly where it carries an empty
   * text or a zero rating; otherwise the card shows the record's own values.
   */
  lemma {:induction false} BackendRecordPlaceholders(r: MovieService.Recommendation)
    ensures
      var v := ShowCard(CardOf(r));
      && (v.rating == NotAvailable <==> r.rating == 0.0)
      && (v.releaseDate == "Unknown" <==> r.releaseDate == "" || r.releaseDate == "Unknown")
      && (r.overview != "" ==> v.overview == r.overview)
      && (r.overview == "" ==> v.overview == "No description available.")
      && (r.genres != "" ==> v.genres == r.genres)
      && (r.genres == "" ==> v.genres == "Unknown")
  {
  }
}

=== FILE: movie_service.dfy ===
/**
 * `get_recommendations`: find the movie whose title equals the query up
 * to case, rank every movie by its similarity to that one, skip the
 * top-ranked entry and keep the next `num`, and turn each kept row into a
 * response record. The similarity matrix is an input (one integer score per
 * pair of rows); how it is computed is not part of this model.
 */
module MovieService {
  import opened Wrappers
  import opened Strings
  import opened Ranking
  import opened Lookup

  const PosterBase := "https://image.tmdb.org/t/p/w500"
  const DefaultCount := 10

  /**
   * A row of the prepared movie frame. `indexLabel` is its pandas index label;
   * `posterPath` is None when the cell is not a string; `voteAverage` is
   * None when the cell holds text that `float()` rejects (the empty string
   * that `fillna('')` leaves in a missing cell).
   */
  datatype Movie = Movie(
    indexLabel: nat,
    title: string,
    overview: string,
    genres: string,
    posterPath: Option<string>,
    voteAverage: Option<real>,
    releaseDate: string)

  /** The movie rows and their pairwise similarity scores, by row position. */
  datatype Catalog = Catalog(rows: seq<Movie>, similarity: seq<seq<int>>)

  predicate WellFormed(c: Catalog) {
    && |c.similarity| == |c.rows|
    && forall i :: 0 <= i < |c.similarity| ==> |c.similarity[i]| == |c.rows|
  }

  datatype Recommendation = Recommendation(
    title: string,
    overview: string,
    genres: string,
    posterPath: Option<string>,
    rating: real,
    releaseDate: string)

  /** The exceptions the service can raise. */
  datatype Failure = RatingNotNumeric | AnchorOutOfBounds

  predicate SameTitle(query: string, m: Movie) {
    Lower(m.title) == Lower(query)
  }

  /** The position of the first movie whose title equals `query` up to case. */
  function Anchor(rows: seq<Movie>, query: string): (r: Option<nat>)
    ensures r.Some? ==> r.value < |rows| && SameTitle(query, rows[r.value])
    ensures r.Some? ==> forall k :: 0 <= k < r.value ==> !SameTitle(query, rows[k])
    ensures r.None? <==> forall k :: 0 <= k < |rows| ==> !SameTitle(query, rows[k])
  {
    FirstWhere(rows, (m: Movie) => SameTitle(query, m), 0)
  }

  /** The poster URL: present exactly for a string path longer than three characters. */
  function Poster(raw: Option<string>): (r: Option<string>)
    ensures r.Some? <==> raw.Some? && |raw.value| > 3
    ensures r.Some? ==> r.value == PosterBase + raw.value
  {
    match raw
    case Some(path) => if |path| > 3 then Some(PosterBase + path) else None
    case None => None
  }

  /** The response record for one row; `float(vote_average)` may raise. */
  function Record(m: Movie): (r: Result<Recommendation, Failure>)
    ensures r.Err? <==> m.voteAverage.None?
    ensures r.Ok? ==>
      && r.value.title == m.title
      && r.value.overview == m.overview
      && r.value.genres == m.genres
      && r.value.releaseDate == m.releaseDate
      && r.value.rating == m.voteAverage.value
      && r.value.posterPath == Poster(m.posterPath)
  {
    match m.voteAverage
    case None => Err(RatingNotNumeric)
    case Some(v) => Ok(Recommendation(m.title, m.overview, m.genres, Poster(m.posterPath), v, m.releaseDate))
  }

  /** The records of the picked rows, in order; the first failing row aborts. */
  function Records(rows: seq<Movie>, picks: seq<nat>): (r: Result<seq<Recommendation>, Failure>)
    requires forall k :: 0 <= k < |picks| ==> picks[k] < |rows|
    ensures r.Ok? <==> forall k :: 0 <= k < |picks| ==> rows[picks[k]].voteAverage.Some?
    ensures r.Ok? ==> |r.value| == |picks|
    ensures r.Ok? ==> forall k :: 0 <= k < |picks| ==> Record(rows[picks[k]]) == Ok(r.value[k])
  {
    if picks == [] then Ok([])
    else match Record(rows[picks[0]])
      case Err(e) => Err(e)
      case Ok(head) =>
        match Records(rows, picks[1..])
        case Err(e) => Err(e)
        case Ok(tail) => Ok([head] + tail)
  }

  /** `get_recommendations(title, num)` with the anchor taken by row position. */
  function GetRecommendations(c: Catalog, query: string, num: nat): (r: Result<seq<Recommendation>, Failure>)
    requires WellFormed(c)
    ensures Anchor(c.rows, query).None? ==> r == Ok([])
    ensures r.Ok? ==> |r.value| <= num && (r.value == [] || |r.value| < |c.rows|)
    ensures Anchor(c.rows, query).Some? && r.Ok? ==>
      |r.value| == if num < |c.rows| - 1 then num else |c.rows| - 1
    ensures Anchor(c.rows, query).Some? ==>
      var p := Anchor(c.rows, query).value;
      r == Records(c.rows, Picks(c.similarity[p], num))
  {
    match Anchor(c.rows, query)
    case None => Ok([])
    case Some(p) => Records(c.rows, Picks(c.similarity[p], num))
  }

  /**
   * The route's call `get_recommendations(title)` with the default of ten,
   * as shipped: the anchor is the matched row's index label.
   */
  function Recommend(c: Catalog, query: string): (r: Result<seq<Recommendation>, Failure>)
    requires WellFormed(c)
    ensures Anchor(c.rows, query).None? ==> r == Ok([])
    ensures Anchor(c.rows, query).Some? && c.rows[Anchor(c.rows, query).value].indexLabel >= |c.rows| ==>
      r == Err(AnchorOutOfBounds)
    ensures r.Ok? ==> |r.value| <= DefaultCount
    ensures Anchor(c.rows, query).Some? && r.Ok? ==>
      |r.value| == if DefaultCount < |c.rows| - 1 then DefaultCount else |c.rows| - 1
    ensures
      var a := Anchor(c.rows, query);
      a.Some? && c.rows[a.value].indexLabel < |c.rows| ==>
        r == Records(c.rows, Picks(c.similarity[c.rows[a.value].indexLabel], DefaultCount))
  {
    GetRecommendationsAsWritten(c, query, DefaultCount)
  }

  /**
   * The JSON reply of `GET /movies/recommend`: the query echoed next to the
   * list, or FastAPI's 500 when the service raises.
   */
  datatype RouteReply = Recommended(query: string, recommendations: seq<Recommendation>) | ServerError

  /** `recommend_movie(title)`: wraps the shipped service's list with the title it answers. */
  function RecommendRoute(c: Catalog, title: string): (r: RouteReply)
    requires WellFormed(c)
    ensures r.Recommended? <==> Recommend(c, title).Ok?
    ensures r.Recommended? ==> r.query == title && r.recommendations == Recommend(c, title).value
    ensures Anchor(c.rows, title).None? ==> r == Recommended(title, [])
    ensures r.Recommended? ==> |r.recommendations| <= DefaultCount
  {
    match Recommend(c, title)
    case Ok(list) => Recommended(title, list)
    case Err(_) => ServerError
  }

  /** The route's call once the anchor is taken by row position. */
  function RecommendCorrected(c: Catalog, query: string): (r: Result<seq<Recommendation>, Failure>)
    requires WellFormed(c)
    ensures Anchor(c.rows, query).None? ==> r == Ok([])
    ensures r.Ok? ==> |r.value| <= DefaultCount
    ensures Anchor(c.rows, query).Some? && r.Ok? ==>
      |r.value| == if DefaultCount < |c.rows| - 1 then DefaultCount else |c.rows| - 1
    ensures Anchor(c.rows, query).Some? ==>
      var p := Anchor(c.rows, query).value;
      r == Records(c.rows, Picks(c.similarity[p], DefaultCount))
  {
    GetRecommendations(c, query, DefaultCount)
  }

  /**
   * Recommendations come in non-increasing similarity to the queried movie,
   * each is the record of a distinct row, and none is the top-ranked row.
   */
  lemma {:induction false} RecommendationsRanked(c: Catalog, query: string, num: nat)
    requires WellFormed(c) && Anchor(c.rows, query).Some?
    ensures
      var p := Anchor(c.rows, query).value;
      var picks := Picks(c.similarity[p], num);
      && (forall i, j :: 0 <= i < j < |picks| ==>
            picks[i] != picks[j] && c.similarity[p][picks[i]] >= c.similarity[p][picks[j]])
      && (forall k :: 0 <= k < |picks| ==> picks[k] != Rank(c.similarity[p])[0])
  {
  }

  /**
   * When a movie is strictly more similar to itself than to any other movie,
   * it is never among its own recommendations.
   */
  lemma {:induction false} QueriedMovieNotRecommended(c: Catalog, query: string, num: nat)
    requires WellFormed(c) && Anchor(c.rows, query).Some?
    requires
      var p := Anchor(c.rows, query).value;
      forall k :: 0 <= k < |c.rows| && k != p ==> c.similarity[p][k] < c.similarity[p][p]
    ensures
      var p := Anchor(c.rows, query).value;
      p !in Picks(c.similarity[p], num)
  {
    var p := Anchor(c.rows, query).value;
    var scores := c.similarity[p];
    var ranked := Rank(scores);
    RankIsPermutation(scores, p);
    var i :| 0 <= i < |ranked| && ranked[i] == p;
    if i > 0 {
      assert Before(scores, ranked[0], p);
      RankIsPermutation(scores, ranked[0]);
      assert false;
    }
    RecommendationsRanked(c, query, num);
  }

  /**
   * The shipped code: `movies[mask].index[0]` is the index LABEL of the
   * matched row, and it is used as a POSITION into the similarity matrix.
   * After rows with a missing overview are dropped the labels have gaps, so
   * the label can name another movie's row or lie past the end.
   */
  function GetRecommendationsAsWritten(c: Catalog, query: string, num: nat): (r: Result<seq<Recommendation>, Failure>)
    requires WellFormed(c)
    ensures Anchor(c.rows, query).None? ==> r == Ok([])
    ensures Anchor(c.rows, query).Some? && c.rows[Anchor(c.rows, query).value].indexLabel >= |c.rows| ==>
      r == Err(AnchorOutOfBounds)
    ensures Anchor(c.rows, query).Some? && c.rows[Anchor(c.rows, query).value].indexLabel < |c.rows| ==>
      var idx := c.rows[Anchor(c.rows, query).value].indexLabel;
      r == Records(c.rows, Picks(c.similarity[idx], num))
    ensures r.Ok? ==> |r.value| <= num
    ensures Anchor(c.rows, query).Some? && r.Ok? ==>
      |r.value| == if num < |c.rows| - 1 then num else |c.rows| - 1
  {
    match Anchor(c.rows, query)
    case None => Ok([])
    case Some(p) =>
      var idx := c.rows[p].indexLabel;
      if idx < |c.similarity| then Records(c.rows, Picks(c.similarity[idx], num))
      else Err(AnchorOutOfBounds)
  }

  /** Two movies after the row labelled 0 was dropped: labels 1 and 2. */
  function GappedCatalog(): (c: Catalog)
    ensures WellFormed(c)
  {
    Catalog(
      [ Movie(1, "Alpha", "first", "drama", None, Some(7.0), "1999"),
        Movie(2, "Beta", "second", "drama", None, Some(6.0), "2001") ],
      [ [10, 3], [3, 10] ])
  }

  lemma {:induction false} RankOfDescendingPair()
    ensures Rank([10, 3]) == [0, 1]
  {
    var s: seq<int> := [10, 3];
    assert Ranked(s, [0, 1]);
    assert multiset(Indices(2)) == multiset([0, 1]) by {
      assert Indices(2) == [0, 1];
    }
    RankUnique(s, Rank(s), [0, 1]);
  }

  lemma {:induction false} RankOfAscendingPair()
    ensures Rank([3, 10]) == [1, 0]
  {
    var s: seq<int> := [3, 10];
    assert Ranked(s, [1, 0]);
    assert multiset(Indices(2)) == multiset([1, 0]) by {
      assert Indices(2) == [0, 1];
    }
    RankUnique(s, Rank(s), [1, 0]);
  }

  lemma {:induction false} AlphaAnchorsFirstRow()
    ensures Anchor(GappedCatalog().rows, "alpha") == Some(0)
  {
  }

  /** With two rows, the picks are the row ranked second. */
  lemma {:induction false} PicksOfTwoRows(scores: seq<int>, num: nat)
    requires |scores| == 2 && num >= 1
    ensures Picks(scores, num) == [Rank(scores)[1]]
  {
  }

  lemma {:induction false} PicksOfPairs()
    ensures Picks([3, 10], DefaultCount) == [0]
    ensures Picks([10, 3], DefaultCount) == [1]
  {
    RankOfAscendingPair();
    RankOfDescendingPair();
    PicksOfTwoRows([3, 10], DefaultCount);
    PicksOfTwoRows([10, 3], DefaultCount);
  }

  /** As written, asking about "alpha" recommends Alpha itself, not Beta. */
  lemma {:induction false} AsWrittenRecommendsQueriedMovie()
    ensures GetRecommendationsAsWritten(GappedCatalog(), "alpha", DefaultCount)
      == Ok([Recommendation("Alpha", "first", "drama", None, 7.0, "1999")])
    ensures GetRecommendations(GappedCatalog(), "alpha", DefaultCount)
      == Ok([Recommendation("Beta", "second", "drama", None, 6.0, "2001")])
  {
    var c := GappedCatalog();
    AlphaAnchorsFirstRow();
    PicksOfPairs();
    RecordsOfGappedRows();
    assert c.rows[0].indexLabel == 1;
    assert c.similarity[0] == [10, 3] && c.similarity[1] == [3, 10];
  }

  lemma {:induction false} RecordsOfGappedRows()
    ensures Records(GappedCatalog().rows, [0]) == Ok([Recommendation("Alpha", "first", "drama", None, 7.0, "1999")])
    ensures Records(GappedCatalog().rows, [1]) == Ok([Recommendation("Beta", "second", "drama", None, 6.0, "2001")])
  {
    var rows := GappedCatalog().rows;
    var alpha := Recommendation("Alpha", "first", "drama", None, 7.0, "1999");
    var beta := Recommendation("Beta", "second", "drama", None, 6.0, "2001");
    var first: seq<nat> := [0];
    var second: seq<nat> := [1];
    assert Records(rows, first[1..]) == Ok([]) && Records(rows, second[1..]) == Ok([]);
    assert [alpha] + [] == [alpha] && [beta] + [] == [beta];
  }

}

=== FILE: ocr_routes.dfy ===
/**
 * POST /ocr/extract: save the upload, then run the engine the `method`
 * parameter names. Saving and the engines are inputs: each either returns
 * (a path, or the recognised text) or raises with a message.
 */
module OcrRoutes {
  import opened Wrappers

  const DefaultMethod := "easyocr"

  datatype Engine = EasyOcr | Pytesseract

  datatype Response =
    | Extracted(ocrMethod: string, text: string)     // 200 {requested, text}
    | ErrorResponse(status: int, error: string)    // {error: ...}

  /** What handling did: whether the upload was written, which engine ran, the reply. */
  datatype Handled = Handled(saved: bool, ran: Option<Engine>, response: Response)

  /** The engine a method name selects, if any. */
  function EngineFor(m: string): (e: Option<Engine>)
    ensures e == Some(EasyOcr) <==> m == "easyocr"
    ensures e == Some(Pytesseract) <==> m == "pytesseract"
  {
    if m == "easyocr" then Some(EasyOcr)
    else if m == "pytesseract" then Some(Pytesseract)
    else None
  }

  /**
   * `extract_text(file, method)`. `requested` is the `method` parameter, None when it was
   * not supplied; `save` is the outcome of writing the upload; `easyocr` and
   * `tesseract` are what each engine would return or raise.
   */
  function ExtractText(
    requested: Option<string>,
    save: Result<string, string>,
    easyocr: Result<string, string>,
    tesseract: Result<string, string>): (h: Handled)
    ensures save.Err? ==> h == Handled(false, None, ErrorResponse(500, save.error))
    ensures save.Ok? ==> h.saved
    ensures save.Ok? && EngineFor(requested.GetOr(DefaultMethod)).None? ==>
      h == Handled(true, None, ErrorResponse(400, "Invalid method"))
    ensures h.ran.Some? ==> h.ran == EngineFor(requested.GetOr(DefaultMethod))
    ensures save.Ok? ==> h.ran == EngineFor(requested.GetOr(DefaultMethod))
    ensures save.Ok? && EngineFor(requested.GetOr(DefaultMethod)).Some? ==>
      var outcome := if h.ran == Some(EasyOcr) then easyocr else tesseract;
      && (outcome.Ok? ==> h.response == Extracted(requested.GetOr(DefaultMethod), outcome.value))
      && (outcome.Err? ==> h.response == ErrorResponse(500, outcome.error))
    ensures h.response.Extracted? ==>
      && h.response.ocrMethod == requested.GetOr(DefaultMethod)
      && (h.ran == Some(EasyOcr) ==> easyocr == Ok(h.response.text))
      && (h.ran == Some(Pytesseract) ==> tesseract == Ok(h.response.text))
  {
    var m := requested.GetOr(DefaultMethod);
    match save
    case Err(message) => Handled(false, None, ErrorResponse(500, message))
    case Ok(_) =>
      match EngineFor(m)
      case None => Handled(true, None, ErrorResponse(400, "Invalid method"))
      case Some(engine) =>
        var outcome := if engine == EasyOcr then easyocr else tesseract;
        match outcome
        case Err(message) => Handled(true, Some(engine), ErrorResponse(500, message))
        case Ok(text) => Handled(true, Some(engine), Extracted(m, text))
  }

  /** Without a method parameter the EasyOCR engine runs. */
  lemma {:induction false} DefaultRunsEasyOcr(save: Result<string, string>, easyocr: Result<string, string>, tesseract: Result<string, string>)
    requires save.Ok?
    ensures ExtractText(None, save, easyocr, tesseract).ran == Some(EasyOcr)
    ensures easyocr.Ok? ==> ExtractText(None, save, easyocr, tesseract).response == Extracted("easyocr", easyocr.value)
  {
  }

  /** A reply is 200 exactly when saving worked, the method is known and its engine returned. */
  lemma {:induction false} SuccessIff(requested: Option<string>, save: Result<string, string>, easyocr: Result<string, string>, tesseract: Result<string, string>)
    ensures
      var h := ExtractText(requested, save, easyocr, tesseract);
      var e := EngineFor(requested.GetOr(DefaultMethod));
      h.response.Extracted? <==>
        save.Ok? && e.Some? && (if e.value == EasyOcr then easyocr.Ok? else tesseract.Ok?)
  {
  }
}

=== FILE: ranking.dfy ===
/**
 * Python's `sorted(enumerate(row), key=score, reverse=True)`, reduced to the
 * order of the row indices it produces. The sort is stable, so indices with
 * equal scores keep their ascending order: the result is the permutation of
 * the indices that is strictly ordered by `Before`. Scores are integers
 * standing for any totally ordered score type.
 */
module Ranking {

  /** `a` precedes `b`: higher score first, lower index first among equal scores. */
  predicate Before(scores: seq<int>, a: nat, b: nat) {
    && a < |scores| && b < |scores|
    && (scores[a] > scores[b] || (scores[a] == scores[b] && a < b))
  }

  predicate InRange(scores: seq<int>, r: seq<nat>) {
    forall i :: 0 <= i < |r| ==> r[i] < |scores|
  }

  predicate Ranked(scores: seq<int>, r: seq<nat>) {
    forall i, j :: 0 <= i < j < |r| ==> Before(scores, r[i], r[j])
  }

  /** The indices 0, 1, ..., n - 1. */
  function Indices(n: nat): (r: seq<nat>)
    ensures |r| == n
    ensures forall i :: 0 <= i < n ==> r[i] == i
  {
    if n == 0 then [] else Indices(n - 1) + [n - 1]
  }

  lemma {:induction false} BeforeTransitive(scores: seq<int>, a: nat, b: nat, c: nat)
    requires Before(scores, a, b) && Before(scores, b, c)
    ensures Before(scores, a, c)
  {
  }

  /** A head that precedes every element of a ranked tail gives a ranked list. */
  lemma {:induction false} RankedCons(scores: seq<int>, h: nat, t: seq<nat>)
    requires Ranked(scores, t)
    requires forall y :: y in t ==> Before(scores, h, y)
    ensures Ranked(scores, [h] + t)
  {
  }

  /** An index that precedes the head of a ranked list precedes all of it. */
  lemma {:induction false} BeforeHeadBeforeAll(scores: seq<int>, x: nat, l: seq<nat>)
    requires Ranked(scores, l) && l != [] && Before(scores, x, l[0])
    ensures forall y :: y in l ==> Before(scores, x, y)
  {
  }

  /** The head of a ranked list precedes the rest of it with `x` inserted. */
  lemma {:induction false} HeadBeforeInserted(scores: seq<int>, x: nat, l: seq<nat>, tail: seq<nat>)
    requires Ranked(scores, l) && l != [] && Before(scores, l[0], x)
    requires multiset(tail) == multiset(l[1..]) + multiset{x}
    ensures forall y :: y in tail ==> Before(scores, l[0], y)
  {
    forall y | y in tail ensures Before(scores, l[0], y) {
      assert y in multiset(tail);
      if y != x {
        var k :| 0 <= k < |l[1..]| && l[1..][k] == y;
        assert Before(scores, l[0], l[k + 1]);
      }
    }
  }

  /** Places index `x` into a ranked list of other indices. */
  function Insert(scores: seq<int>, x: nat, l: seq<nat>): (r: seq<nat>)
    requires x < |scores| && InRange(scores, l) && Ranked(scores, l) && x !in l
    ensures |r| == |l| + 1
    ensures multiset(r) == multiset(l) + multiset{x}
    ensures InRange(scores, r) && Ranked(scores, r)
  {
    if l == [] then [x]
    else if Before(scores, x, l[0]) then
      BeforeHeadBeforeAll(scores, x, l);
      RankedCons(scores, x, l);
      [x] + l
    else
      var tail := Insert(scores, x, l[1..]);
      assert l == [l[0]] + l[1..];
      HeadBeforeInserted(scores, x, l, tail);
      RankedCons(scores, l[0], tail);
      [l[0]] + tail
  }

  function RankPrefix(scores: seq<int>, n: nat): (r: seq<nat>)
    requires n <= |scores|
    ensures multiset(r) == multiset(Indices(n))
    ensures InRange(scores, r) && Ranked(scores, r)
  {
    if n == 0 then []
    else
      var l := RankPrefix(scores, n - 1);
      assert n - 1 !in multiset(Indices(n - 1));
      Insert(scores, n - 1, l)
  }

  /** The row indices in the order the stable descending sort puts them. */
  function Rank(scores: seq<int>): (r: seq<nat>)
    ensures multiset(r) == multiset(Indices(|scores|))
    ensures |r| == |scores|
    ensures InRange(scores, r) && Ranked(scores, r)
  {
    var r := RankPrefix(scores, |scores|);
    assert |r| == |multiset(r)|;
    r
  }

  /** `sorted(enumerate(scores), key=..., reverse=True)[1:num+1]`, as row positions. */
  function Picks(scores: seq<int>, num: nat): (r: seq<nat>)
    ensures |scores| == 0 ==> r == []
    ensures |scores| > 0 ==> |r| == if num < |scores| - 1 then num else |scores| - 1
    ensures forall k :: 0 <= k < |r| ==> r[k] < |scores| && r[k] == Rank(scores)[k + 1]
    ensures forall i, j :: 0 <= i < j < |r| ==> Before(scores, r[i], r[j])
  {
    var ranked := Rank(scores);
    if |ranked| == 0 then []
    else
      var hi := if num + 1 <= |ranked| then num + 1 else |ranked|;
      var r := ranked[1..hi];
      assert forall i, j :: 0 <= i < j < |r| ==> Before(scores, r[i], r[j]) by {
        forall i, j | 0 <= i < j < |r| ensures Before(scores, r[i], r[j]) {
          assert r[i] == ranked[i + 1] && r[j] == ranked[j + 1];
        }
      }
      r
  }

  /** Scores never increase along a ranking. */
  lemma {:induction false} RankedScoresNonIncreasing(scores: seq<int>, r: seq<nat>, i: nat, j: nat)
    requires Ranked(scores, r) && i < j < |r|
    ensures r[i] < |scores| && r[j] < |scores| && scores[r[i]] >= scores[r[j]]
  {
  }

  /** Every row index appears in the ranking exactly once. */
  lemma {:induction false} RankIsPermutation(scores: seq<int>, k: nat)
    ensures k < |scores| <==> k in Rank(scores)
  {
    var r := Rank(scores);
    if k < |scores| {
      assert Indices(|scores|)[k] == k;
      assert k in multiset(Indices(|scores|));
    }
  }

  /** Two rankings of the same indices start with the same index. */
  lemma {:induction false} HeadsAgree(scores: seq<int>, a: seq<nat>, b: seq<nat>)
    requires Ranked(scores, a) && Ranked(scores, b)
    requires multiset(a) == multiset(b) && a != []
    ensures b != [] && a[0] == b[0]
  {
    assert a[0] in multiset(b);
    var i :| 0 <= i < |b| && b[i] == a[0];
    assert b[0] in multiset(a);
    var j :| 0 <= j < |a| && a[j] == b[0];
  }

  /**
   * The ranking is the only way to order the indices by `Before`: any
   * other list with the same elements, ordered the same way, is equal.
   */
  lemma {:induction false} RankUnique(scores: seq<int>, a: seq<nat>, b: seq<nat>)
    requires Ranked(scores, a) && Ranked(scores, b)
    requires multiset(a) == multiset(b)
    ensures a == b
    decreases |a|
  {
    if a == [] {
      assert |b| == |multiset(b)| == 0;
    } else {
      HeadsAgree(scores, a, b);
      assert a == [a[0]] + a[1..] && b == [b[0]] + b[1..];
      assert multiset(a[1..]) == multiset(b[1..]) by {
        assert multiset(a) == multiset{a[0]} + multiset(a[1..]);
        assert multiset(b) == multiset{b[0]} + multiset(b[1..]);
        assert multiset(a[1..]) == multiset(a) - multiset{a[0]};
        assert multiset(b[1..]) == multiset(b) - multiset{b[0]};
      }
      RankUnique(scores, a[1..], b[1..]);
    }
  }
}

=== FILE: reveal.dfy ===
/**
 * `revealWordByWord`: the display is cleared, the text is split with
 * `split(/\s+/)`, and an interval appends `" " + word` once per tick until
 * every word has been appended. Time is not modelled: each firing of the
 * interval is one `Tick`.
 */
module Reveal {
  import opened Wrappers
  import opened Strings
  import opened Words

  /** A running interval: the words being revealed and the index of the next one. */
  datatype Ticker = Ticker(words: seq<string>, next: nat)

  /** The displayed text and the interval held in `intervalRef`, if one is running. */
  datatype Display = Display(shown: string, ticker: Option<Ticker>)

  /** A running interval always has a word left to append. */
  predicate Valid(d: Display) {
    d.ticker.Some? ==> d.ticker.value.next < |d.ticker.value.words|
  }

  /** The text after `k` ticks: `" " + words[j]` for each j < k, in order. */
  function Accum(words: seq<string>, k: nat): string
    requires k <= |words|
  {
    if k == 0 then "" else Accum(words, k - 1) + " " + words[k - 1]
  }

  /** Starting a reveal cancels whatever interval was running and clears the display. */
  function Start(d: Display, text: string): (r: Display)
    ensures Valid(r) && r.shown == ""
    ensures r.ticker.Some? && r.ticker.value.words == Split(text) && r.ticker.value.next == 0
  {
    Display("", Some(Ticker(Split(text), 0)))
  }

  /** One firing of the interval; without a running interval nothing happens. */
  function Tick(d: Display): (r: Display)
    requires Valid(d)
    ensures Valid(r)
    ensures d.ticker.None? ==> r == d
    ensures d.ticker.Some? ==>
      var t := d.ticker.value;
      && r.shown == d.shown + " " + t.words[t.next]
      && (r.ticker.None? <==> t.next + 1 == |t.words|)
      && (t.next + 1 < |t.words| ==> r.ticker == Some(Ticker(t.words, t.next + 1)))
  {
    match d.ticker
    case None => d
    case Some(t) =>
      var next := t.next + 1;
      Display(d.shown + " " + t.words[t.next],
              if next >= |t.words| then None else Some(Ticker(t.words, next)))
  }

  function Ticks(d: Display, k: nat): (r: Display)
    requires Valid(d)
    ensures Valid(r)
  {
    if k == 0 then d else Tick(Ticks(d, k - 1))
  }

  /**
   * After `k` ticks of an interval started on `words` with an empty display,
   * the display holds the first `k` words, each preceded by a space, and
   * the interval is still running exactly when words remain.
   */
  lemma {:induction false} TicksFromFirstWord(words: seq<string>, k: nat)
    requires 1 <= |words| && k <= |words|
    ensures Ticks(Display("", Some(Ticker(words, 0))), k)
      == Display(Accum(words, k), if k < |words| then Some(Ticker(words, k)) else None)
  {
    if k > 0 {
      TicksFromFirstWord(words, k - 1);
      var before := Ticks(Display("", Some(Ticker(words, 0))), k - 1);
      assert before == Display(Accum(words, k - 1), Some(Ticker(words, k - 1)));
      assert Tick(before).shown == Accum(words, k);
      assert Tick(before).ticker == if k < |words| then Some(Ticker(words, k)) else None;
    }
  }

  /**
   * After `k` ticks of a fresh reveal the display holds exactly the first
   * `k` words, each preceded by a space, whatever was shown or running
   * before; the interval is still running exactly when words remain.
   */
  lemma {:induction false} RevealProgress(d: Display, text: string, k: nat)
    requires k <= |Split(text)|
    ensures
      var words := Split(text);
      Ticks(Start(d, text), k)
        == Display(Accum(words, k), if k < |words| then Some(Ticker(words, k)) else None)
  {
    assert Start(d, text) == Display("", Some(Ticker(Split(text), 0)));
    TicksFromFirstWord(Split(text), k);
  }

  lemma {:induction false} TicksCompose(d: Display, a: nat, b: nat)
    requires Valid(d)
    ensures Ticks(d, a + b) == Ticks(Ticks(d, a), b)
    decreases b
  {
    if b > 0 {
      TicksCompose(d, a, b - 1);
    }
  }

  lemma {:induction false} IdleTicks(d: Display, k: nat)
    requires d.ticker.None?
    ensures Ticks(d, k) == d
  {
    if k > 0 {
      IdleTicks(d, k - 1);
    }
  }

  /** Once the interval has stopped, further ticks change nothing. */
  lemma {:induction false} StaysStopped(d: Display, n: nat, extra: nat)
    requires Valid(d) && Ticks(d, n).ticker.None?
    ensures Ticks(d, n + extra) == Ticks(d, n)
  {
    TicksCompose(d, n, extra);
    IdleTicks(Ticks(d, n), extra);
  }

  lemma {:induction false} AccumIsJoin(words: seq<string>, k: nat)
    requires 1 <= k <= |words|
    ensures Accum(words, k) == " " + Join(words[..k], " ")
  {
    if k == 1 {
      assert words[..1] == [words[0]];
    } else {
      AccumIsJoin(words, k - 1);
      JoinSnoc(words[..k - 1], words[k - 1], " ");
      assert words[..k - 1] + [words[k - 1]] == words[..k];
    }
  }

  /**
   * Once every word has been appended the display is the text with every
   * whitespace run collapsed to one space, preceded by a space, and the
   * interval is stopped.
   */
  lemma {:induction false} RevealFinishes(d: Display, text: string)
    ensures Ticks(Start(d, text), |Split(text)|) == Display(" " + Collapse(text), None)
  {
    var words := Split(text);
    var n := |words|;
    RevealProgress(d, text, n);
    AccumIsJoin(words, n);
    assert words[..n] == words;
    JoinSplitIsCollapse(text);
  }

  /** The interval is still running after one tick fewer than there are words. */
  lemma {:induction false} RevealRunsUntilLastWord(d: Display, text: string)
    ensures Ticks(Start(d, text), |Split(text)| - 1).ticker.Some?
  {
    var n := |Split(text)|;
    RevealProgress(d, text, n - 1);
    assert Ticks(Start(d, text), n - 1).ticker == Some(Ticker(Split(text), n - 1));
  }

  /**
   * The interval has stopped once as many ticks as there are words have
   * fired, and later ticks change nothing.
   */
  lemma {:induction false} RevealCompletes(d: Display, text: string, extra: nat)
    ensures Ticks(Start(d, text), |Split(text)|).ticker.None?
    ensures Ticks(Start(d, text), |Split(text)| + extra) == Ticks(Start(d, text), |Split(text)|)
  {
    RevealProgress(d, text, |Split(text)|);
    StaysStopped(Start(d, text), |Split(text)|, extra);
  }

  /**
   * The interval callback when React defers the updater passed to
   * `setGenerated` to the next render: by then `i++` has run, so the
   * updater reads the word after the one the tick was meant to append, and
   * past the last word it reads `undefined`, which concatenates as the text
   * "undefined". When the interval stops is unaffected.
   */
  function TickDeferred(d: Display): (r: Display)
    requires Valid(d)
    ensures Valid(r)
    ensures d.ticker.None? ==> r == d
    ensures d.ticker.Some? ==>
      var t := d.ticker.value;
      && r.ticker == Tick(d).ticker
      && r.shown == d.shown + " " + (if t.next + 1 < |t.words| then t.words[t.next + 1] else "undefined")
  {
    match d.ticker
    case None => d
    case Some(t) =>
      var next := t.next + 1;
      Display(d.shown + " " + (if next < |t.words| then t.words[next] else "undefined"),
              if next >= |t.words| then None else Some(Ticker(t.words, next)))
  }

  function TicksDeferred(d: Display, k: nat): (r: Display)
    requires Valid(d)
    ensures Valid(r)
  {
    if k == 0 then d else TickDeferred(TicksDeferred(d, k - 1))
  }

  /** Two words without whitespace, joined by one space, split back into those words. */
  lemma {:induction false} SplitOfTwoWords(a: string, b: string)
    requires a != [] && NoSpace(a) && b != [] && NoSpace(b)
    ensures Split(a + " " + b) == [a, b]
  {
    var ws := [a, b];
    assert Join(ws, " ") == a + " " + b by {
      assert ws[1..] == [b];
    }
    SplitJoinRoundTrip(ws);
  }

  /** Two deferred ticks on two words show the second word and then "undefined". */
  lemma {:induction false} DeferredTicksOfPair(a: string, b: string)
    ensures TicksDeferred(Display("", Some(Ticker([a, b], 0))), 2) == Display("" + " " + b + " " + "undefined", None)
  {
    var d0 := Display("", Some(Ticker([a, b], 0)));
    assert TicksDeferred(d0, 1) == TickDeferred(d0);
    assert TickDeferred(d0) == Display("" + " " + b, Some(Ticker([a, b], 1)));
  }

  /** Two immediate ticks on two words show both words. */
  lemma {:induction false} TicksOfPair(a: string, b: string)
    ensures Ticks(Display("", Some(Ticker([a, b], 0))), 2) == Display("" + " " + a + " " + b, None)
  {
    var d0 := Display("", Some(Ticker([a, b], 0)));
    assert Ticks(d0, 1) == Tick(d0);
    assert Tick(d0) == Display("" + " " + a, Some(Ticker([a, b], 1)));
  }

  /** Starting a reveal of two words joined by one space points at the first of them. */
  lemma {:induction false} StartOfTwoWords(d: Display, a: string, b: string)
    requires a != [] && NoSpace(a) && b != [] && NoSpace(b)
    ensures Start(d, a + " " + b) == Display("", Some(Ticker([a, b], 0)))
  {
    SplitOfTwoWords(a, b);
  }

  /**
   * Revealing a two-word text such as "a b" with deferred updaters drops
   * the first word and ends with "undefined"; with immediate updaters it
   * shows both words.
   */
  lemma {:induction false} DeferredRevealOfTwoWords(d: Display, a: string, b: string)
    requires a != [] && NoSpace(a) && b != [] && NoSpace(b)
    ensures TicksDeferred(Start(d, a + " " + b), 2) == Display(" " + b + " undefined", None)
  {
    StartOfTwoWords(d, a, b);
    DeferredTicksOfPair(a, b);
    assert "" + " " + b + " " + "undefined" == " " + b + " undefined";
  }

  /** With immediate updaters the same text is shown in full. */
  lemma {:induction false} RevealOfTwoWords(d: Display, a: string, b: string)
    requires a != [] && NoSpace(a) && b != [] && NoSpace(b)
    ensures Ticks(Start(d, a + " " + b), 2) == Display(" " + a + " " + b, None)
  {
    StartOfTwoWords(d, a, b);
    TicksOfPair(a, b);
    assert "" + " " + a + " " + b == " " + a + " " + b;
  }

  /** Revealing the empty text takes one tick and shows a single space. */
  lemma {:induction false} RevealEmptyText(d: Display)
    ensures Ticks(Start(d, ""), 1) == Display(" ", None)
  {
  }
}

=== FILE: streamlit_app.dfy ===
/**
 * The Recommend button of the Streamlit demo: a case-insensitive substring
 * search over titles picks the first matching movie, and the ten entries
 * ranked after the top one are written out, one line each. The pickled
 * frame is assumed to carry a default (0, 1, 2, ...) index, so that the
 * first match's index is its position. The page is a list of written lines.
 */
module StreamlitApp {
  import opened Wrappers
  import opened Strings
  import opened Ranking
  import opened Lookup

  const ShownCount := 10

  /**
   * A pickled movie row as the page prints it; `title` is None for a
   * missing (NaN) title, which the f-string prints as "nan".
   */
  datatype Movie = Movie(title: Option<string>, releaseDate: string, voteAverage: string)

  datatype Catalog = Catalog(rows: seq<Movie>, similarity: seq<seq<int>>)

  predicate WellFormed(c: Catalog) {
    && |c.similarity| == |c.rows|
    && forall i :: 0 <= i < |c.similarity| ==> |c.similarity[i]| == |c.rows|
  }

  /** What one run of the script does when the button area is reached. */
  datatype Screen =
    | Written(lines: seq<string>)
    | NameError   // the button was used before the pickles were loaded

  /** `str.contains(query, case=False, na=False)` on the title column. */
  predicate TitleMatches(query: string, m: Movie) {
    m.title.Some? && Contains(Lower(m.title.value), Lower(query))
  }

  /** Whether a title matches does not depend on the case of the query. */
  lemma {:induction false} MatchIgnoresCase(query: string, m: Movie)
    ensures TitleMatches(query, m) <==> TitleMatches(Lower(query), m)
  {
    LowerIdempotent(query);
  }

  /** A query equal to the whole title up to case matches it. */
  lemma {:induction false} WholeTitleMatches(query: string, m: Movie)
    requires m.title.Some? && Lower(m.title.value) == Lower(query)
    ensures TitleMatches(query, m)
  {
    var t := Lower(m.title.value);
    assert t[0..0 + |t|] == t;
    assert OccursAt(t, Lower(query), 0);
  }

  /** One recommendation line: bold title, release date in brackets, then the rating. */
  function Line(m: Movie): (r: string)
    ensures |r| == |m.title.GetOr("nan")| + |m.releaseDate| + |m.voteAverage| + 12
    ensures StartsWith(r, "- **" + m.title.GetOr("nan") + "** (")
    ensures r[|r| - |m.voteAverage|..] == m.voteAverage
    ensures r[|"- **" + m.title.GetOr("nan") + "** ("|..|r| - |m.voteAverage|] == m.releaseDate + ") — "
  {
    "- **" + m.title.GetOr("nan") + "** (" + m.releaseDate + ") — " + m.voteAverage
  }

  function Lines(c: Catalog, picks: seq<nat>): (r: seq<string>)
    requires forall k :: 0 <= k < |picks| ==> picks[k] < |c.rows|
    ensures |r| == |picks|
    ensures forall k :: 0 <= k < |r| ==> r[k] == Line(c.rows[picks[k]])
  {
    if picks == [] then [] else [Line(c.rows[picks[0]])] + Lines(c, picks[1..])
  }

  /**
   * One run of the Recommend block. `catalog` is None when the secrets
   * were missing and nothing was loaded.
   */
  function RecommendBlock(catalog: Option<Catalog>, pressed: bool, query: string): (s: Screen)
    requires catalog.Some? ==> WellFormed(catalog.value)
    ensures !pressed || query == "" ==> s == Written([])
    ensures pressed && query != "" && catalog.None? ==> s == NameError
    ensures pressed && query != "" && catalog.Some? ==>
      var c := catalog.value;
      && s.Written?
      && ((forall k :: 0 <= k < |c.rows| ==> !TitleMatches(query, c.rows[k])) <==> s.lines == ["No match found"])
      && (s.lines != ["No match found"] ==> 1 <= |s.lines| <= 1 + ShownCount && s.lines[0] == "Recommendations:")
  {
    if !pressed || query == "" then Written([])
    else match catalog
      case None => NameError
      case Some(c) =>
        match FirstWhere(c.rows, (m: Movie) => TitleMatches(query, m), 0)
        case None => Written(["No match found"])
        case Some(idx) =>
          var lines := ["Recommendations:"] + Lines(c, Picks(c.similarity[idx], ShownCount));
          assert |lines[0]| != |"No match found"|;
          Written(lines)
  }

  /**
   * The lines after the heading describe the rows ranked second to eleventh
   * by similarity to the first matching row, in that order.
   */
  lemma {:induction false} ShownLinesFollowRanking(c: Catalog, query: string, idx: nat)
    requires WellFormed(c) && idx < |c.rows| && TitleMatches(query, c.rows[idx])
    requires forall k :: 0 <= k < idx ==> !TitleMatches(query, c.rows[k])
    requires query != ""
    ensures
      var s := RecommendBlock(Some(c), true, query);
      var picks := Picks(c.similarity[idx], ShownCount);
      && s.lines == ["Recommendations:"] + Lines(c, picks)
      && |picks| <= ShownCount && |picks| <= |c.rows| - 1
      && (forall i, j :: 0 <= i < j < |picks| ==>
            c.similarity[idx][picks[i]] >= c.similarity[idx][picks[j]])
  {
    var p := (m: Movie) => TitleMatches(query, m);
    var found := FirstWhere(c.rows, p, 0);
    assert found.Some? ==> found.value >= idx;
    assert found == Some(idx);
    var picks := Picks(c.similarity[idx], ShownCount);
    forall i, j | 0 <= i < j < |picks|
      ensures c.similarity[idx][picks[i]] >= c.similarity[idx][picks[j]]
    {
      assert Before(c.similarity[idx], picks[i], picks[j]);
    }
  }
}

=== FILE: strings.dfy ===
/**
 * Strings as sequences of Unicode scalar values, and the few string
 * primitives of Python and JavaScript that the application relies on.
 * The two runtimes disagree about which characters are whitespace, so
 * every whitespace-sensitive operation names the runtime it follows.
 */
module Strings {

  /** The runtime whose notion of whitespace an operation follows. */
  datatype Runtime = Python | JavaScript

  /**
   * Python's `str.isspace` (used by `strip` and `lstrip`) and the
   * ECMAScript WhiteSpace/LineTerminator set (used by `trim` and `\s`).
   */
  predicate IsSpace(rt: Runtime, c: char) {
    var n := c as int;
    || 0x09 <= n <= 0x0D
    || n == 0x20 || n == 0xA0 || n == 0x1680
    || 0x2000 <= n <= 0x200A
    || n == 0x2028 || n == 0x2029 || n == 0x202F || n == 0x205F || n == 0x3000
    || (rt == Python && (0x1C <= n <= 0x1F || n == 0x85))
    || (rt == JavaScript && n == 0xFEFF)
  }

  /**
   * The two whitespace sets differ in five characters: Python alone counts
   * the separators U+001C..U+001F and NEXT LINE (U+0085), JavaScript alone
   * the byte order mark U+FEFF.
   */
  lemma {:induction false} SpaceSetsDiffer(c: char)
    ensures IsSpace(Python, c) && !IsSpace(JavaScript, c) <==> 0x1C <= c as int <= 0x1F || c as int == 0x85
    ensures IsSpace(JavaScript, c) && !IsSpace(Python, c) <==> c as int == 0xFEFF
  {
  }

  predicate AllSpace(rt: Runtime, s: string) {
    forall i :: 0 <= i < |s| ==> IsSpace(rt, s[i])
  }

  /** Python `s.lstrip()`: the suffix of `s` left after its leading whitespace. */
  function LStrip(rt: Runtime, s: string): (r: string)
    ensures |r| <= |s| && r == s[|s| - |r|..]
    ensures AllSpace(rt, s[..|s| - |r|])
    ensures r == [] || !IsSpace(rt, r[0])
  {
    if s == [] || !IsSpace(rt, s[0]) then s else LStrip(rt, s[1..])
  }

  /** The prefix of `s` left after its trailing whitespace. */
  function RStrip(rt: Runtime, s: string): (r: string)
    ensures |r| <= |s| && r == s[..|r|]
    ensures AllSpace(rt, s[|r|..])
    ensures r == [] || !IsSpace(rt, r[|r| - 1])
  {
    if s == [] || !IsSpace(rt, s[|s| - 1]) then s else RStrip(rt, s[..|s| - 1])
  }

  /** Python `s.strip()` and JavaScript `s.trim()`, depending on `rt`. */
  function Strip(rt: Runtime, s: string): string {
    RStrip(rt, LStrip(rt, s))
  }

  /**
   * Cutting a whitespace prefix and then a whitespace suffix leaves a
   * piece of the original text with whitespace on both sides of it.
   */
  lemma {:induction false} InnerPiece(rt: Runtime, s: string, l: string, r: string)
    requires |l| <= |s| && l == s[|s| - |l|..] && AllSpace(rt, s[..|s| - |l|])
    requires l == [] || !IsSpace(rt, l[0])
    requires |r| <= |l| && r == l[..|r|] && AllSpace(rt, l[|r|..])
    requires r == [] || !IsSpace(rt, r[|r| - 1])
    ensures
      var i := |s| - |l|;
      && i + |r| <= |s| && r == s[i..i + |r|]
      && AllSpace(rt, s[..i]) && AllSpace(rt, s[i + |r|..])
      && (r != [] ==> !IsSpace(rt, r[0]) && !IsSpace(rt, r[|r| - 1]))
  {
    var i := |s| - |l|;
    assert r == s[i..i + |r|];
    assert s[i + |r|..] == l[|r|..];
    if r != [] {
      assert r[0] == l[0];
    }
  }

  /** The stripped text neither starts nor ends with whitespace. */
  lemma {:induction false} StripEndsNonSpace(rt: Runtime, s: string)
    ensures Strip(rt, s) != [] ==> !IsSpace(rt, Strip(rt, s)[0]) && !IsSpace(rt, Strip(rt, s)[|Strip(rt, s)| - 1])
  {
    var l := LStrip(rt, s);
    var r := RStrip(rt, l);
    assert Strip(rt, s) == r;
    if r != [] {
      assert r[0] == l[0];
    }
  }

  /** Stripping leaves nothing exactly when every character is whitespace. */
  lemma {:induction false} StripEmptyIffAllSpace(rt: Runtime, s: string)
    ensures Strip(rt, s) == [] <==> AllSpace(rt, s)
  {
  }

  /** Cutting a text at two positions and gluing the pieces back gives the text. */
  lemma {:induction false} SliceThree(s: string, i: nat, j: nat)
    requires i <= j <= |s|
    ensures s == s[..i] + s[i..j] + s[j..]
  {
  }

  /** Python `s.startswith(p)`. */
  predicate StartsWith(s: string, p: string) {
    |p| <= |s| && s[..|p|] == p
  }

  /** ASCII case folding; other characters are left as they are. */
  function LowerChar(c: char): char {
    if 'A' <= c <= 'Z' then (c as int + 32) as char else c
  }

  /** Python `s.lower()` on ASCII letters: each capital becomes its small letter. */
  function Lower(s: string): (r: string)
    ensures |r| == |s|
    ensures forall i :: 0 <= i < |r| ==> !('A' <= r[i] <= 'Z')
    ensures forall i :: 0 <= i < |s| && !('A' <= s[i] <= 'Z') ==> r[i] == s[i]
    ensures forall i :: 0 <= i < |s| && 'A' <= s[i] <= 'Z' ==> r[i] as int == s[i] as int + 32
  {
    seq(|s|, i requires 0 <= i < |s| => LowerChar(s[i]))
  }

  /** Lower-casing twice is lower-casing once. */
  lemma {:induction false} LowerIdempotent(s: string)
    ensures Lower(Lower(s)) == Lower(s)
  {
    var once := Lower(s);
    assert forall i :: 0 <= i < |once| ==> Lower(once)[i] == once[i];
  }

  /** `p` occurs in `s` as a contiguous piece. */
  predicate Contains(s: string, p: string) {
    exists k :: 0 <= k <= |s| - |p| && OccursAt(s, p, k)
  }

  predicate OccursAt(s: string, p: string, k: nat) {
    k + |p| <= |s| && s[k..k + |p|] == p
  }

  /** Python `sep.join(parts)` and JavaScript `parts.join(sep)`. */
  function Join(parts: seq<string>, sep: string): string
    decreases |parts|
  {
    if |parts| == 0 then ""
    else if |parts| == 1 then parts[0]
    else parts[0] + sep + Join(parts[1..], sep)
  }

  /** Appending one more part to a non-empty join adds the separator and the part. */
  lemma {:induction false} JoinSnoc(parts: seq<string>, p: string, sep: string)
    requires |parts| >= 1
    ensures Join(parts + [p], sep) == Join(parts, sep) + sep + p
    decreases |parts|
  {
    if |parts| == 1 {
      assert (parts + [p])[1..] == [p];
    } else {
      assert (parts + [p])[1..] == parts[1..] + [p];
      JoinSnoc(parts[1..], p, sep);
    }
  }

  /** JavaScript `s.length`: characters outside the Basic Multilingual Plane take two UTF-16 units. */
  function Utf16Length(s: string): (n: nat)
    ensures |s| <= n <= 2 * |s|
  {
    if s == [] then 0
    else (if s[0] as int > 0xFFFF then 2 else 1) + Utf16Length(s[1..])
  }
}

=== FILE: text_generation.dfy ===
/**
 * The text generation page: prompt and slider state, the request flag
 * `generating`, the word-by-word display, and the text that copy, share
 * and download act on. Each handler is a function from the page to the
 * next page and the effects it asks for; the reply to the request arrives
 * later as its own event (`Settle`).
 */
module TextGenerationPage {
  import opened Wrappers
  import opened Strings
  import opened Words
  import opened Effects
  import opened Reveal
  import TextRoutes

  /** The integer sliders; temperature and top-p are not modelled. */
  datatype Params = Params(maxLength: int, topK: int, num: int)

  /**
   * `fullResults` is the value last stored in `fullResultsRef`: None when a
   * reply carried no `results` field (`undefined`).
   */
  datatype Page = Page(
    prompt: string,
    params: Params,
    generating: bool,
    display: Display,
    fullResults: Option<seq<string>>)

  datatype Step = Step(page: Page, effects: seq<Effect>)

  /** The reply to the generation request: a body (whose `results` may be absent) or a rejection. */
  datatype Reply = Replied(results: Option<seq<string>>) | Failed

  /** What `navigator.share` offers: nothing, a share that completes, or one that rejects. */
  datatype ShareSupport = NoShare | ShareCompletes | ShareRejects

  const BlankPromptAlert := "Please enter a prompt!"
  const FailureAlert := "Text generation failed. Check console for details."
  const ResultSeparator := "\n\n"

  /** The page as mounted: an empty prompt, so generating only alerts until one is typed. */
  function Init(): (p: Page)
    ensures !p.generating && p.display == Display("", None) && p.fullResults == Some([])
    ensures Generate(p) == Step(p, [Alert(BlankPromptAlert)])
  {
    Page("", Params(120, 50, 1), false, Display("", None), Some([]))
  }

  /** The ranges the sliders allow. */
  predicate SliderBounds(p: Params) {
    && 20 <= p.maxLength <= 512
    && 0 <= p.topK <= 100 && p.topK % 5 == 0
    && 1 <= p.num <= 5
  }

  lemma {:induction false} InitWithinSliders()
    ensures SliderBounds(Init().params) && Valid(Init().display)
  {
  }

  /** `!prompt.trim()`: nothing is left once surrounding whitespace is removed. */
  function Blank(prompt: string): (b: bool)
    ensures b <==> AllSpace(JavaScript, prompt)
  {
    StripEmptyIffAllSpace(JavaScript, prompt);
    Strip(JavaScript, prompt) == []
  }

  /** `handleGenerate` up to the request: a blank prompt only raises an alert. */
  function Generate(p: Page): (s: Step)
    ensures Blank(p.prompt) <==> Calls(s.effects) == []
    ensures Blank(p.prompt) ==> s == Step(p, [Alert(BlankPromptAlert)])
    ensures !Blank(p.prompt) ==>
      && s.page == p.(generating := true, display := p.display.(shown := ""))
      && Calls(s.effects) == [PostGenerate(GenerateBody(p.prompt, p.params.maxLength, p.params.topK, p.params.num, true))]
      && s.effects == [Request(PostGenerate(GenerateBody(p.prompt, p.params.maxLength, p.params.topK, p.params.num, true)))]
  {
    if Blank(p.prompt) then
      var effects := [Alert(BlankPromptAlert)];
      assert Calls(effects) == [] by {
        assert effects[1..] == [];
      }
      Step(p, effects)
    else
      var body := GenerateBody(p.prompt, p.params.maxLength, p.params.topK, p.params.num, true);
      var effects := [Request(PostGenerate(body))];
      assert Calls(effects) == [PostGenerate(body)] by {
        assert effects[1..] == [];
      }
      Step(p.(generating := true, display := p.display.(shown := "")), effects)
  }

  /** The rest of `handleGenerate` once the request settles. */
  function Settle(p: Page, reply: Reply): (s: Step)
    requires Valid(p.display)
    ensures !s.page.generating && Valid(s.page.display)
    ensures s.page.prompt == p.prompt && s.page.params == p.params
    ensures reply.Failed? ==> s.page == p.(generating := false)
    ensures reply.Replied? ==> s.page.fullResults == reply.results
    ensures reply.Replied? && reply.results.Some? && |reply.results.value| > 0 ==>
      s.page.display == Start(p.display, reply.results.value[0])
    ensures reply.Replied? && (reply.results.None? || reply.results.value == []) ==>
      s.page.display == p.display
    ensures reply.Failed? ==> s.effects == [ConsoleLog, Alert(FailureAlert)]
    ensures reply.Replied? ==> s.effects == []
  {
    match reply
    case Failed =>
      Step(p.(generating := false), [ConsoleLog, Alert(FailureAlert)])
    case Replied(results) =>
      var display :=
        if results.Some? && |results.value| > 0 then Start(p.display, results.value[0]) else p.display;
      Step(p.(fullResults := results, display := display, generating := false), [])
  }

  /** One interval firing on this page. */
  function TickPage(p: Page): (r: Page)
    requires Valid(p.display)
    ensures Valid(r.display)
    ensures r.generating == p.generating && r.fullResults == p.fullResults
    ensures r.prompt == p.prompt && r.params == p.params && r.display == Tick(p.display)
  {
    p.(display := Tick(p.display))
  }

  /**
   * The text copy, share and download use: the display when it is not
   * empty, otherwise every result joined by a blank line. None stands for
   * the TypeError raised when the stored results are undefined.
   */
  function ExportText(p: Page): (t: Option<string>)
    ensures p.display.shown != "" ==> t == Some(p.display.shown)
    ensures p.display.shown == "" && p.fullResults.Some? ==> t == Some(Join(p.fullResults.value, ResultSeparator))
    ensures t.None? <==> p.display.shown == "" && p.fullResults.None?
  {
    if p.display.shown != "" then Some(p.display.shown)
    else match p.fullResults
      case Some(results) => Some(Join(results, ResultSeparator))
      case None => None
  }

  function Copy(p: Page): (e: seq<Effect>)
    ensures ExportText(p).Some? ==> e == [WriteClipboard(ExportText(p).value), Alert("Copied to clipboard!")]
    ensures ExportText(p).None? ==> e == []
  {
    match ExportText(p)
    case None => []
    case Some(text) => [WriteClipboard(text), Alert("Copied to clipboard!")]
  }

  function Share(p: Page, support: ShareSupport): (e: seq<Effect>)
    ensures ExportText(p).Some? && support.NoShare? ==>
      e == Copy(p) + [Alert("Sharing not supported — copied instead.")]
    ensures ExportText(p).Some? && !support.NoShare? ==>
      && |e| >= 1 && e[0] == OpenShareSheet("Generated Text", ExportText(p).value)
      && forall k :: 0 <= k < |e| ==> !e[k].Alert? && !e[k].WriteClipboard?
    ensures ExportText(p).None? ==> e == []
    ensures ExportText(p).Some? && support.ShareCompletes? ==>
      e == [OpenShareSheet("Generated Text", ExportText(p).value)]
    ensures ExportText(p).Some? && support.ShareRejects? ==>
      e == [OpenShareSheet("Generated Text", ExportText(p).value), ConsoleLog]
  {
    match ExportText(p)
    case None => []
    case Some(text) =>
      match support
      case NoShare => Copy(p) + [Alert("Sharing not supported — copied instead.")]
      case ShareCompletes => [OpenShareSheet("Generated Text", text)]
      case ShareRejects => [OpenShareSheet("Generated Text", text), ConsoleLog]
  }

  function Download(p: Page): (e: seq<Effect>)
    ensures ExportText(p).Some? ==> e == [SaveFile("generated_text.txt", ExportText(p).value)]
    ensures ExportText(p).None? ==> e == []
  {
    match ExportText(p)
    case None => []
    case Some(text) => [SaveFile("generated_text.txt", text)]
  }

  /** Once settled with results, ticking through the first result's words shows it in full. */
  lemma {:induction false} SettledRevealCompletes(pending: Page, results: seq<string>)
    requires Valid(pending.display) && |results| > 0
    ensures
      var settled := Settle(pending, Replied(Some(results))).page;
      Ticks(settled.display, |Split(results[0])|) == Display(" " + Collapse(results[0]), None)
  {
    assert Settle(pending, Replied(Some(results))).page.display == Start(pending.display, results[0]);
    RevealFinishes(pending.display, results[0]);
  }

  /**
   * A full round: a non-blank prompt is sent, the reply's first result is
   * revealed, `generating` is back to false, and once every word has been
   * ticked in the display shows that result with collapsed whitespace.
   */
  lemma {:induction false} GenerateRevealRound(p: Page, results: seq<string>)
    requires Valid(p.display) && !Blank(p.prompt) && |results| > 0
    ensures
      var pending := Generate(p).page;
      var settled := Settle(pending, Replied(Some(results))).page;
      && pending.generating
      && !settled.generating
      && settled.fullResults == Some(results)
      && Ticks(settled.display, |Split(results[0])|) == Display(" " + Collapse(results[0]), None)
  {
    var pending := Generate(p).page;
    assert pending.display == p.display.(shown := "");
    SettledRevealCompletes(pending, results);
  }

  /** Only the first result is revealed; the others reach the page only through export. */
  lemma {:induction false} OnlyFirstResultRevealed(p: Page, results: seq<string>)
    requires Valid(p.display) && |results| > 1
    ensures
      var settled := Settle(p, Replied(Some(results))).page;
      && settled.display.ticker == Some(Ticker(Split(results[0]), 0))
      && ExportText(settled) == Some(Join(results, ResultSeparator))
  {
  }

  /**
   * A new request clears the display but does not stop a reveal that is
   * still running, so the next tick writes a word of the previous result.
   */
  lemma {:induction false} StaleTickAfterNewRequest(p: Page)
    requires Valid(p.display) && p.display.ticker.Some? && !Blank(p.prompt)
    ensures
      var t := p.display.ticker.value;
      TickPage(Generate(p).page).display.shown == " " + t.words[t.next]
  {
    var t := p.display.ticker.value;
    var cleared := Generate(p).page.display;
    assert cleared == Display("", Some(t));
    assert Tick(cleared).shown == "" + " " + t.words[t.next];
    assert "" + " " + t.words[t.next] == " " + t.words[t.next];
  }

  /** The JSON body as the backend reads it. */
  function Received(b: GenerateBody): TextRoutes.RawRequest {
    TextRoutes.RawRequest(Some(b.prompt), Some(b.maxLength), Some(b.topK), Some(b.numReturnSequences), Some(b.trimPrompt))
  }

  /** Slider values are within the backend's field bounds. */
  lemma {:induction false} SliderValuesValid(prompt: string, q: Params)
    requires SliderBounds(q)
    ensures TextRoutes.Validate(TextRoutes.RawRequest(Some(prompt), Some(q.maxLength), Some(q.topK), Some(q.num), Some(true)))
      == Ok(TextRoutes.GenerateRequest(prompt, q.maxLength, q.topK, q.num, true))
  {
  }

  /**
   * Every request the page can send passes the backend's field validation,
   * and asks for the prompt to be trimmed from the results.
   */
  lemma {:induction false} SliderRequestsAccepted(p: Page)
    requires SliderBounds(p.params) && !Blank(p.prompt)
    ensures
      var calls := Calls(Generate(p).effects);
      && |calls| == 1
      && TextRoutes.Validate(Received(calls[0].body)).Ok?
      && TextRoutes.Validate(Received(calls[0].body)).value.trimPrompt
  {
    var body := GenerateBody(p.prompt, p.params.maxLength, p.params.topK, p.params.num, true);
    assert Calls(Generate(p).effects) == [PostGenerate(body)];
    assert Received(body) == TextRoutes.RawRequest(Some(p.prompt), Some(p.params.maxLength), Some(p.params.topK), Some(p.params.num), Some(true));
    SliderValuesValid(p.prompt, p.params);
  }

  /** The page's `trim()` keeps U+001C, so a prompt of that character alone is not blank. */
  lemma {:induction false} ControlCharNotBlank(prompt: string)
    requires prompt == [0x1C as char]
    ensures !Blank(prompt)
  {
    assert !IsSpace(JavaScript, prompt[0]);
  }

  /** Python's `strip()` removes U+001C, so the backend rejects that prompt as empty. */
  lemma {:induction false} ControlCharRejected(prompt: string)
    requires prompt == [0x1C as char]
    ensures TextRoutes.Generate(TextRoutes.GenerateRequest(prompt, 120, 50, 1, true), Ok([])).response
      == TextRoutes.HttpError(400, "prompt must not be empty")
  {
    assert IsSpace(Python, prompt[0]);
    assert AllSpace(Python, prompt);
  }

  /**
   * The page and the backend disagree on what is blank: U+001C passes the
   * page's `trim()` check but Python's `strip()` removes it, so the request
   * is sent and answered with status 400.
   */
  lemma {:induction false} BlanknessDisagreement(p: Page)
    requires p.prompt == [0x1C as char]
    ensures Calls(Generate(p).effects) != []
    ensures TextRoutes.Generate(TextRoutes.GenerateRequest(p.prompt, 120, 50, 1, true), Ok([])).response
      == TextRoutes.HttpError(400, "prompt must not be empty")
  {
    ControlCharNotBlank(p.prompt);
    ControlCharRejected(p.prompt);
  }
}

=== FILE: text_routes.dfy ===
/**
 * POST /text/generate: validation of the request body against the field
 * bounds of `GenerateRequest`, the blank-prompt check, the optional
 * removal of the prompt from each generated text, and the mapping of
 * failures to HTTP errors. The text generator itself is an input: its
 * outcome is either the list of generated strings or an exception message.
 */
module TextRoutes {
  import opened Wrappers
  import opened Strings

  const MaxLengthDefault := 120
  const MaxLengthMin := 10
  const MaxLengthMax := 2048
  const TopKDefault := 50
  const TopKMin := 0
  const TopKMax := 1000
  const NumReturnDefault := 1
  const NumReturnMin := 1
  const NumReturnMax := 5

  /** The JSON body as received; a field absent from the body is None. */
  datatype RawRequest = RawRequest(
    prompt: Option<string>,
    maxLength: Option<int>,
    topK: Option<int>,
    numReturnSequences: Option<int>,
    trimPrompt: Option<bool>)

  /** A body that passed validation, defaults filled in. */
  datatype GenerateRequest = GenerateRequest(
    prompt: string,
    maxLength: int,
    topK: int,
    numReturnSequences: int,
    trimPrompt: bool)

  /** One entry of the 422 error list, in field declaration order. */
  datatype FieldError = PromptMissing | MaxLengthOutOfRange | TopKOutOfRange | NumReturnOutOfRange

  datatype Response =
    | Generated(prompt: string, results: seq<string>)
    | HttpError(status: int, detail: string)
    | Unprocessable(errors: seq<FieldError>)

  /** A handled request: whether the generator ran, and what was sent back. */
  datatype Handled = Handled(generatorCalled: bool, response: Response)

  predicate Accepts(v: Option<int>, lo: int, hi: int) {
    v.None? || lo <= v.value <= hi
  }

  function Check(ok: bool, e: FieldError): seq<FieldError> {
    if ok then [] else [e]
  }

  /** Field validation: defaults for absent fields, inclusive bounds for present ones. */
  function Validate(raw: RawRequest): (r: Result<GenerateRequest, seq<FieldError>>)
    ensures r.Ok? <==>
      && raw.prompt.Some?
      && Accepts(raw.maxLength, MaxLengthMin, MaxLengthMax)
      && Accepts(raw.topK, TopKMin, TopKMax)
      && Accepts(raw.numReturnSequences, NumReturnMin, NumReturnMax)
    ensures r.Ok? ==>
      && r.value.prompt == raw.prompt.value
      && MaxLengthMin <= r.value.maxLength <= MaxLengthMax
      && TopKMin <= r.value.topK <= TopKMax
      && NumReturnMin <= r.value.numReturnSequences <= NumReturnMax
      && (raw.maxLength.None? ==> r.value.maxLength == 120)
      && (raw.topK.None? ==> r.value.topK == 50)
      && (raw.numReturnSequences.None? ==> r.value.numReturnSequences == 1)
      && (raw.trimPrompt != Some(true) <==> !r.value.trimPrompt)
    ensures r.Ok? ==>
      && (raw.maxLength.Some? ==> r.value.maxLength == raw.maxLength.value)
      && (raw.topK.Some? ==> r.value.topK == raw.topK.value)
      && (raw.numReturnSequences.Some? ==> r.value.numReturnSequences == raw.numReturnSequences.value)
    ensures r.Err? ==>
      && (PromptMissing in r.error <==> raw.prompt.None?)
      && (MaxLengthOutOfRange in r.error <==> !Accepts(raw.maxLength, MaxLengthMin, MaxLengthMax))
      && (TopKOutOfRange in r.error <==> !Accepts(raw.topK, TopKMin, TopKMax))
      && (NumReturnOutOfRange in r.error <==> !Accepts(raw.numReturnSequences, NumReturnMin, NumReturnMax))
  {
    var errors :=
      Check(raw.prompt.Some?, PromptMissing)
      + Check(Accepts(raw.maxLength, MaxLengthMin, MaxLengthMax), MaxLengthOutOfRange)
      + Check(Accepts(raw.topK, TopKMin, TopKMax), TopKOutOfRange)
      + Check(Accepts(raw.numReturnSequences, NumReturnMin, NumReturnMax), NumReturnOutOfRange);
    if errors != [] then Err(errors)
    else Ok(GenerateRequest(
      raw.prompt.value,
      raw.maxLength.GetOr(MaxLengthDefault),
      raw.topK.GetOr(TopKDefault),
      raw.numReturnSequences.GetOr(NumReturnDefault),
      raw.trimPrompt.GetOr(false)))
  }

  /**
   * One generated text with the prompt removed: when the text starts with
   * the prompt, what follows it minus leading whitespace; otherwise the
   * text itself.
   */
  function TrimOne(prompt: string, t: string): (r: string)
    ensures StartsWith(t, prompt) ==>
      && |prompt| + |r| <= |t|
      && t == prompt + t[|prompt|..|t| - |r|] + r
      && AllSpace(Python, t[|prompt|..|t| - |r|])
      && (r == [] || !IsSpace(Python, r[0]))
    ensures !StartsWith(t, prompt) ==> r == t
  {
    if StartsWith(t, prompt) then
      var rest := t[|prompt|..];
      var r := LStrip(Python, rest);
      var d := |t| - |r|;
      assert rest[..|rest| - |r|] == t[|prompt|..d];
      assert r == t[d..];
      SliceThree(t, |prompt|, d);
      r
    else t
  }

  /** The trimming loop: one output per input, in the same order. */
  function TrimAll(prompt: string, outputs: seq<string>): (r: seq<string>)
    ensures |r| == |outputs|
    ensures forall i :: 0 <= i < |r| ==> r[i] == TrimOne(prompt, outputs[i])
  {
    if outputs == [] then []
    else
      var rest := TrimAll(prompt, outputs[1..]);
      var r := [TrimOne(prompt, outputs[0])] + rest;
      assert forall i :: 0 <= i < |r| ==> r[i] == TrimOne(prompt, outputs[i]) by {
        forall i | 1 <= i < |r| ensures r[i] == TrimOne(prompt, outputs[i]) {
          assert r[i] == rest[i - 1] && outputs[1..][i - 1] == outputs[i];
        }
      }
      r
  }

  /**
   * The route handler for a validated request. `generator` is what the
   * text generator would return or raise if it were called.
   */
  function Generate(req: GenerateRequest, generator: Result<seq<string>, string>): (h: Handled)
    ensures AllSpace(Python, req.prompt) ==>
      h == Handled(false, HttpError(400, "prompt must not be empty"))
    ensures !AllSpace(Python, req.prompt) ==> h.generatorCalled
    ensures !AllSpace(Python, req.prompt) && generator.Err? ==>
      h.response == HttpError(500, generator.error)
    ensures !AllSpace(Python, req.prompt) && generator.Ok? ==>
      && h.response.Generated?
      && h.response.prompt == req.prompt
      && |h.response.results| == |generator.value|
      && (!req.trimPrompt ==> h.response.results == generator.value)
      && (req.trimPrompt ==> forall i :: 0 <= i < |generator.value| ==>
            h.response.results[i] == TrimOne(req.prompt, generator.value[i]))
  {
    StripEmptyIffAllSpace(Python, req.prompt);
    if req.prompt == [] || Strip(Python, req.prompt) == [] then
      Handled(false, HttpError(400, "prompt must not be empty"))
    else match generator
      case Err(message) => Handled(true, HttpError(500, message))
      case Ok(outputs) =>
        var results := if req.trimPrompt then TrimAll(req.prompt, outputs) else outputs;
        Handled(true, Generated(req.prompt, results))
  }

  /** The whole endpoint: validation first (422), then the handler. */
  function Handle(raw: RawRequest, generator: Result<seq<string>, string>): (h: Handled)
    ensures h.response.Unprocessable? <==> Validate(raw).Err?
    ensures Validate(raw).Err? ==> h == Handled(false, Unprocessable(Validate(raw).error))
    ensures Validate(raw).Ok? ==> h == Generate(Validate(raw).value, generator)
    ensures h.generatorCalled ==> raw.prompt.Some? && !AllSpace(Python, raw.prompt.value)
  {
    match Validate(raw)
    case Err(errors) => Handled(false, Unprocessable(errors))
    case Ok(req) => Generate(req, generator)
  }

  /** Without `trim_prompt` the generated texts are returned untouched. */
  lemma {:induction false} UntrimmedOutputsUnchanged(req: GenerateRequest, outputs: seq<string>)
    requires !AllSpace(Python, req.prompt) && !req.trimPrompt
    ensures Generate(req, Ok(outputs)).response == Generated(req.prompt, outputs)
  {
  }

  /** With `trim_prompt`, each result is the trimmed output at the same position. */
  lemma {:induction false} TrimmedOutputsPositionwise(req: GenerateRequest, outputs: seq<string>, i: nat)
    requires !AllSpace(Python, req.prompt) && req.trimPrompt && i < |outputs|
    ensures Generate(req, Ok(outputs)).response.results[i] == TrimOne(req.prompt, outputs[i])
  {
  }

  /**
   * Every request gets exactly one of four answers: 422 for a body that
   * fails field validation, 400 for a blank prompt, 500 when the generator
   * raises, and the generated texts otherwise. The generator runs exactly
   * for a valid body with a non-blank prompt.
   */
  lemma {:induction false} HandleOutcomes(raw: RawRequest, generator: Result<seq<string>, string>)
    ensures
      var h := Handle(raw, generator);
      var valid := Validate(raw).Ok?;
      var blank := raw.prompt.Some? && AllSpace(Python, raw.prompt.value);
      && (h.response.Unprocessable? <==> !valid)
      && (h.response == HttpError(400, "prompt must not be empty") <==> valid && blank)
      && (h.generatorCalled <==> valid && !blank)
      && (h.response.Generated? <==> valid && !blank && generator.Ok?)
      && (valid && !blank && generator.Err? ==> h.response == HttpError(500, generator.error))
  {
    if Validate(raw).Ok? {
      assert Validate(raw).value.prompt == raw.prompt.value;
    }
  }

  /** A body carrying only a prompt is accepted with the documented defaults. */
  lemma {:induction false} DefaultsAccepted(prompt: string)
    ensures Validate(RawRequest(Some(prompt), None, None, None, None))
      == Ok(GenerateRequest(prompt, 120, 50, 1, false))
  {
  }
}

=== FILE: words.dfy ===
/**
 * JavaScript `text.split(/\s+/)`: the text is cut at every maximal run of
 * whitespace. A leading run yields an empty first word, a trailing run an
 * empty last word, and the empty string yields the single word "".
 */
module Words {
  import opened Strings

  predicate NoSpace(w: string) {
    forall i :: 0 <= i < |w| ==> !IsSpace(JavaScript, w[i])
  }

  /** The longest prefix of `s` without whitespace. */
  function Word(s: string): (w: string)
    ensures |w| <= |s| && w == s[..|w|]
    ensures NoSpace(w)
    ensures |w| == |s| || IsSpace(JavaScript, s[|w|])
  {
    if s == [] || IsSpace(JavaScript, s[0]) then [] else [s[0]] + Word(s[1..])
  }

  function Split(s: string): (ws: seq<string>)
    ensures |ws| >= 1
    ensures forall k :: 0 <= k < |ws| ==> NoSpace(ws[k])
    decreases |s|
  {
    var w := Word(s);
    if |w| == |s| then [w]
    else [w] + Split(LStrip(JavaScript, s[|w|..]))
  }

  /**
   * The text with every maximal whitespace run replaced by one space: an
   * independent description of what splitting and re-joining with " " gives.
   */
  function Collapse(s: string): string
    decreases |s|
  {
    if s == [] then []
    else if IsSpace(JavaScript, s[0]) then " " + Collapse(LStrip(JavaScript, s))
    else [s[0]] + Collapse(s[1..])
  }

  lemma {:induction false} CollapseAfterWord(s: string)
    ensures Collapse(s) == Word(s) + Collapse(s[|Word(s)|..])
    decreases |s|
  {
    if s == [] || IsSpace(JavaScript, s[0]) {
      assert s[|Word(s)|..] == s;
    } else {
      var w' := Word(s[1..]);
      CollapseAfterWord(s[1..]);
      assert Word(s) == [s[0]] + w';
      assert s[1..][|w'|..] == s[|Word(s)|..];
      var after := Collapse(s[|Word(s)|..]);
      assert Collapse(s[1..]) == w' + after;
      assert Collapse(s) == [s[0]] + (w' + after);
      assert [s[0]] + (w' + after) == ([s[0]] + w') + after;
    }
  }

  /** A text that does not end inside its first word collapses to that word, one space, and the rest. */
  lemma {:induction false} CollapseAtFirstRun(s: string)
    requires |Word(s)| < |s|
    ensures Collapse(s) == Word(s) + " " + Collapse(LStrip(JavaScript, s[|Word(s)|..]))
  {
    var w := Word(s);
    var t := s[|w|..];
    var after := Collapse(LStrip(JavaScript, t));
    assert Collapse(t) == " " + after by {
      assert t != [] && t[0] == s[|w|];
    }
    CollapseAfterWord(s);
    assert w + (" " + after) == w + " " + after;
  }

  /** Re-joining the words with single spaces gives the collapsed text. */
  lemma {:induction false} JoinSplitIsCollapse(s: string)
    ensures Join(Split(s), " ") == Collapse(s)
    decreases |s|
  {
    var w := Word(s);
    if |w| < |s| {
      var rest := LStrip(JavaScript, s[|w|..]);
      var tail := Split(rest);
      CollapseAtFirstRun(s);
      assert Join(Split(s), " ") == w + " " + Join(tail, " ") by {
        assert Split(s) == [w] + tail;
        assert ([w] + tail)[1..] == tail;
      }
      JoinSplitIsCollapse(rest);
    } else {
      assert Collapse(s) == w by {
        CollapseAfterWord(s);
        assert s[|w|..] == [];
      }
    }
  }

  /** The empty text splits into one empty word. */
  lemma {:induction false} SplitEmpty()
    ensures Split("") == [""]
  {
  }

  /** Leading whitespace produces an empty first word. */
  lemma {:induction false} SplitLeadingSpace(s: string)
    requires |s| > 0 && IsSpace(JavaScript, s[0])
    ensures Split(s)[0] == ""
  {
  }

  lemma {:induction false} WordOfJoin(w: string, rest: string)
    requires NoSpace(w)
    ensures Word(w + " " + rest) == w
    decreases |w|
  {
    if w != [] {
      assert (w + " " + rest)[1..] == w[1..] + " " + rest;
      WordOfJoin(w[1..], rest);
    }
  }

  /** A non-empty join starts with the first character of its first part. */
  lemma {:induction false} JoinHead(ws: seq<string>)
    requires |ws| >= 1 && ws[0] != []
    ensures Join(ws, " ") != [] && Join(ws, " ")[0] == ws[0][0]
  {
  }

  /** Stripping one leading space from a text that then starts with a non-space leaves the text. */
  lemma {:induction false} LStripOneSpace(rest: string)
    requires rest != [] && !IsSpace(JavaScript, rest[0])
    ensures LStrip(JavaScript, " " + rest) == rest
  {
  }

  /** One space between a word and a text that starts with a non-space splits there. */
  lemma {:induction false} SplitAfterSeparator(w: string, rest: string)
    requires w != [] && NoSpace(w)
    requires rest != [] && !IsSpace(JavaScript, rest[0])
    ensures Split(w + " " + rest) == [w] + Split(rest)
  {
    var s := w + " " + rest;
    assert Word(s) == w && s[|w|..] == " " + rest by {
      WordOfJoin(w, rest);
      assert s == w + (" " + rest);
    }
    LStripOneSpace(rest);
  }

  /** Words without whitespace, none of them empty, survive joining and splitting. */
  lemma {:induction false} SplitJoinRoundTrip(ws: seq<string>)
    requires |ws| >= 1
    requires forall k :: 0 <= k < |ws| ==> ws[k] != [] && NoSpace(ws[k])
    ensures Split(Join(ws, " ")) == ws
    decreases |ws|
  {
    if |ws| == 1 {
      assert Word(ws[0]) == ws[0];
    } else {
      var rest := Join(ws[1..], " ");
      assert Join(ws, " ") == ws[0] + " " + rest;
      JoinHead(ws[1..]);
      SplitAfterSeparator(ws[0], rest);
      SplitJoinRoundTrip(ws[1..]);
      assert ws == [ws[0]] + ws[1..];
    }
  }
}

=== FILE: wrappers.dfy ===
/** Failure-carrying values shared by every part of the model. */
module Wrappers {

  /** A value that may be absent: a JSON field or Python attribute that is missing. */
  datatype Option<+T> = None | Some(value: T) {
    function GetOr(default: T): T {
      match this
      case Some(v) => v
      case None => default
    }
  }

  /** The outcome of a call that either returns or raises. */
  datatype Result<+T, +E> = Ok(value: T) | Err(error: E)
}
